=== FILE: README.md ===
# Policy calculators in Dafny

A Dafny model of the arithmetic inside four client-side policy calculators:

- **Childcare reduced-working-hours benefit** (`childcare/script.js`). This covers the policy table keyed by the reduction's start date and the month length used for proration. It covers the single-month proration ratio derived from the two dates. It also covers the `calc` pipeline: the ordered error list, the company's pay in direct or itemised mode, the two-tier split of the reduced hours with per-tier caps, the monthly floor and the optional offset against a reference wage.
- **Youth savings account projection** (`youth-leap/script.js`). This covers the contribution bracket for an annual income and the five-year principal. It also covers the government match, the simple interest with conditional tax, and the grand total.
- **Housing subscription score** (`housing-subscription/script.js`). This covers the three capped score functions and their total. It also covers the dependents counter, a small state machine with minus, plus and typed-value events.
- **Unemployment benefit estimate** (`unemployment/script.js`). This covers the insured-period band, the 5 × 2 duration table, the daily amount held between the lower and upper limits and then truncated, and the total.

The DOM is replaced by already-parsed inputs. Money, hours and ratios are `real`, so there is no IEEE-754 rounding. Each explicit `Math.floor` is `.Floor`. A field the source tests with `> 0` is an `Option<real>`: `None` stands for an empty or non-numeric field, which fails every such test, as `NaN` does. Dates are (year, month, day) triples of the proleptic Gregorian calendar.

Files, one module each: `fields.dfy` (`Option` for parsed fields, `Positive`, `AtMost`), `js_math.dfy` (`Min`, `Max`), `calendar.dfy`, `childcare_policy.dfy`, `childcare_ratio.dfy`, `childcare_income.dfy`, `childcare_benefit.dfy`, `youth_leap.dfy`, `housing_subscription.dfy`, `unemployment.dfy`.

Four behaviours of the code that the model keeps:

- A reversed date range stops `calc` at once (childcare/script.js:217-222). It yields the single error `EndBeforeStart`, and the hour checks do not run.
- In itemised mode an empty income list gives both `NoIncomeItems` and `OrdinaryWageZero`. The ordinary-wage sum of no items is 0 (childcare/script.js:246-262).
- `calc` reads back the ratio that `applyRatioByDates` wrote with `toFixed(4)`. So the ratio used is the derived ratio rounded to four decimals (`ChildcareRatio.RatioField`), not the exact quotient.
- `daysInMonth` builds `new Date(year, month, 0)`, and that constructor reads the years 0 to 99 as 1900 to 1999. The month length it returns differs from the calendar's only in February of year 0: 28 days instead of 29 (`Calendar.DaysInMonthIsMonthLength`).

## Model

| member | source | states |
|---|---|---|
| Calendar.MonthLength | childcare/script.js:62-64 | February has 29 days in leap years and 28 otherwise. April, June, September and November have 30, and the other seven months have 31. |
| Calendar.ConstructorYear | childcare/script.js:63 | The `Date` constructor reads years 0 to 99 as 1900 to 1999 and leaves every other year alone. |
| Calendar.DaysInMonth | childcare/script.js:62-64 | `daysInMonth` returns 28 to 31. For February it returns 29 exactly when the year the constructor uses is a leap year. |
| Calendar.DaysInMonthIsMonthLength | childcare/script.js:62-64 | For every year and month except February of year 0, `daysInMonth` is the true month length, year 0's other eleven months included. For February of year 0 it gives 28 where the calendar has 29. |
| Calendar.BeforeIsStrictTotalOrder | childcare/script.js:73 | The date comparison `e < s` on parsed dates is irreflexive, asymmetric, transitive and total. |
| ChildcarePolicy.PolicyOn | childcare/script.js:39-46 | The policy for a start date is the entry of the latest effective date not after it: (10, 2,500,000, 1,600,000) from 2026-01-01; (10, 2,200,000, 1,500,000) from 2025-01-01; (10, 2,000,000, 1,500,000) from 2024-07-01; (5, 2,000,000, 1,500,000) before that. The floor is always 500,000. |
| ChildcarePolicy.PolicyByStartDate | childcare/script.js:35-47 | There is a policy exactly when the start date parses, and it is the `PolicyOn` entry for that date. Its floor is 500,000, its threshold is 5 or 10, and its caps lie in [2,000,000, 2,500,000] and [1,500,000, 1,600,000]. |
| ChildcarePolicy.PolicyMonotone | childcare/script.js:43-46 | A later start date never lowers the threshold, cap A or cap B, and the floor stays 500,000. |
| ChildcarePolicy.PolicyBoundaries | childcare/script.js:39-46 | The entries on the days either side of each effective date. |
| ChildcareRatio.Clamp01 | childcare/script.js:83 | `Math.max(0, Math.min(1, x))` lies in [0, 1] and leaves a value already in [0, 1] unchanged. |
| ChildcareRatio.InclusiveDays | childcare/script.js:82 | For two ordered dates of one month, the inclusive day count lies between 1 and the month's length. |
| ChildcareRatio.RatioByDates | childcare/script.js:66-88 | Resolution is skipped exactly when a date is missing. It is an order error exactly when the end precedes the start, and a multi-month warning exactly when the ordered dates lie in different months. A derived ratio lies in (0, 1]. It is 1 exactly when the inclusive days reach `daysInMonth`. Outside February of year 0, ratio × month length = inclusive days. |
| ChildcareRatio.WholeMonthRatio | childcare/script.js:78-84 | Outside February of year 0, the ratio is 1 exactly when the range runs from the 1st to the month's last day. |
| ChildcareRatio.TenThousandths | childcare/script.js:84 | The nearest whole number of ten-thousandths, halves up. It lies in [0, 10000] for a value in [0, 1]. |
| ChildcareRatio.Round4 | childcare/script.js:84 | The result is a whole number of ten-thousandths: for x ≥ 0 it is the nearest one to x, halves rounded up, and negative values are rounded by their magnitude. It lies within 1/20000 of x, keeps [0, 1] inside [0, 1] and maps 1 to 1. |
| ChildcareRatio.RatioField | childcare/script.js:73-87 | When a ratio was derived, the field holds it rounded to the nearest ten-thousandth, halves up, within 1/20000 of it. After an order error, a multi-month warning or a missing date it keeps its prior value. |
| ChildcareRatio.RatioExamples | childcare/script.js:73-87 | One day of January 2026 gives 1/31, written as 0.0323. The whole of January gives 1. A range over two months keeps the prior 0.5. A reversed range is an order error. |
| ChildcareIncome.PaidAfter | childcare/script.js:255-259 | With a non-negative amount and H1/H0 in [0, 1], what the company pays for an item after the reduction lies between 0 and the amount. |
| ChildcareIncome.TotalPermutation | childcare/script.js:248-260 | `Total` adds one part of every income row; its three instances are `SumAll` (the amounts), `SumOrdinary` (the ordinary amounts, W) and `SumAfter` (each row's pay after the reduction, `PaidAfter`). Reordering the income rows changes none of the three sums. |
| ChildcareIncome.OrdinaryWithinTotal | childcare/script.js:248-249 | With no negative amounts, 0 ≤ ordinary-wage sum W ≤ sum of all amounts. |
| ChildcareIncome.PaidAfterWithinTotal | childcare/script.js:249-259 | With no negative amounts and H1/H0 in [0, 1], 0 ≤ pay after reduction ≤ pay before. |
| ChildcareIncome.AllProportionalScales | childcare/script.js:255-259 | When every row is proportional, pay after reduction = (H1/H0) × sum of all amounts. |
| ChildcareIncome.AllFullPayUnchanged | childcare/script.js:255-259 | When every row is paid in full, the reduction leaves the pay unchanged. |
| ChildcareIncome.AllNoPayZero | childcare/script.js:255-259 | When no row is paid during the reduction, the company pays nothing after it. |
| ChildcareBenefit.Check | childcare/script.js:225-227 | One check contributes its error exactly when it fails. |
| ChildcareBenefit.HourErrors | childcare/script.js:225-227 | The hour errors are exactly the failed checks among H0 > 0, H1 > 0 and H1 ≤ H0, in that order. A missing value fails each of them. |
| ChildcareBenefit.WageErrors | childcare/script.js:234-264 | Direct mode errs exactly when the wage is not positive. Itemised mode errs on an empty list and, separately, on an ordinary-wage sum that is not positive, in that order. |
| ChildcareBenefit.Validate | childcare/script.js:216-227 | The error list holds exactly the failed checks, in the order `calc` runs them. A reversed date range yields that one error alone. |
| ChildcareBenefit.CheckOrderDeterminesList | childcare/script.js:224-269 | Two error lists in check order with the same members are equal. So the list is fixed by which checks fail. |
| ChildcareBenefit.ValidFormHasNoErrors | childcare/script.js:266-269 | The error list is empty exactly when the dates are in order, the hours are positive and do not grow, and the wage base can be positive. |
| ChildcareBenefit.DirectCompanyBase | childcare/script.js:239-240 | A positive company-paid total replaces the wage as the company's base. |
| ChildcareBenefit.Company | childcare/script.js:234-264 | Itemised mode: W is the ordinary sum, pay before is all amounts × ratio, and pay after is the per-mode sum × ratio. Direct mode: W is the wage, pay before is base × ratio, and pay after × H0 = pay before × H1. |
| ChildcareBenefit.CompanyPayDoesNotGrow | childcare/script.js:240-260 | With 0 < H1 ≤ H0, ratio ≥ 0, and a positive wage or non-negative rows, 0 ≤ company pay after ≤ company pay before. |
| ChildcareBenefit.SplitHours | childcare/script.js:296-297 | Tier hours add up to R. Tier A is at most the threshold and at most R. Tier B is non-negative, and positive exactly when R exceeds the threshold. Tier A fills up first: from R ≥ threshold it holds exactly the threshold and tier B the rest, and below the threshold it holds all of R. |
| ChildcareBenefit.Capped | childcare/script.js:299-300 | A tier base is at most its cap and at most the amount, and equals one of them. |
| ChildcareBenefit.FlooredBenefit | childcare/script.js:305-307 | The benefit before the offset is at least the prorated floor and at least the prorated tier total, and equals one of them. |
| ChildcareBenefit.TiersByThreshold | childcare/script.js:296-303 | `Tiers` gives the monthly tier amounts for R reduced hours out of H0. Up to the threshold, tier A = min(W, capA) × (R / H0) and tier B = 0. From the threshold, tier A = min(W, capA) × (threshold / H0) and tier B = min(W × pctB, capB) × ((R − threshold) / H0). |
| ChildcareBenefit.SettleFollowsRule | childcare/script.js:305-319 | `Settle` computes the benefit by flooring and then, when switched on, offsetting. The benefit from A, B, the floor, the ratio, companyAfter and the offset base follows the rule. Let the floored amount be max((A + B) × ratio, floor × ratio) and the reference be base × ratio. Without the offset the benefit is the floored amount. With it, a floored amount that fits under the reference is kept whole. A non-negative floored amount becomes min(floored, max(0, reference − companyAfter)). companyAfter + benefit ≤ max(reference, companyAfter). With a non-negative prorated floor the benefit lies in [0, floored]. |
| ChildcareBenefit.OffsetReference | childcare/script.js:311-312 | The offset reference is a positive offset base, otherwise W. |
| ChildcareBenefit.Offset | childcare/script.js:315-319 | Afterwards companyAfter + benefit ≤ max(reference, companyAfter). A non-negative benefit never grows and never goes negative. A benefit that already fits is unchanged. |
| ChildcareBenefit.OffsetIsHeadroomClamp | childcare/script.js:315-319 | For a non-negative benefit the offset equals min(benefit, max(0, reference − companyAfter)). |
| ChildcareBenefit.OffsetIdempotent | childcare/script.js:315-319 | Applying the offset twice gives the same benefit as once. |
| ChildcareBenefit.Reduced | childcare/script.js:295-320 | With R > 0 the tier figures are A × ratio and B × ratio, the company figures pass through and total income = companyAfter + benefit. The benefit follows the rule of `SettleFollowsRule`, with the reference being the offset base when positive and W otherwise. Without the offset it is the floored amount. With the offset it is kept whole when it fits, and otherwise it is cut to the headroom min(floored, max(0, reference × ratio − companyAfter)). |
| ChildcareBenefit.Figures | childcare/script.js:271-343 | For a valid form, W, company pay before and company pay after are those of `Company` for the form's wages, hours and ratio. R = H0 − H1 ≥ 0 and total income = companyAfter + benefit. With R = 0 the benefit and both tiers are 0 and total income = companyAfter. With R > 0 the figures are those of `Reduced` on that company pay and on `Tiers` for W and R, whose amounts `TiersByThreshold` states, so the benefit follows its floor and offset rule. |
| ChildcareBenefit.Calc | childcare/script.js:216-269 | `calc` computes figures exactly for a valid form. Otherwise it returns the non-empty `Validate` list. A reversed date range gives `Errors([EndBeforeStart])`. |
| ChildcareBenefit.AutoFill | childcare/script.js:49-59 | Automatic policy replaces the policy fields with the start date's entry when the date parses. Automatic ratio replaces the ratio with the rounded derived one when a ratio is derived. Every other field is unchanged. |
| ChildcareBenefit.Run | childcare/script.js:198-202 | The outcome is `calc` on the auto-filled form: its figures when it validates, its `Validate` list otherwise. A reversed date range still gives the single ordering error. The auto-fill never changes whether the form validates. When a result is computed with a derived ratio, the auto-filled ratio lies in [0, 1]. |
| ChildcareBenefit.OrderErrorAgrees | childcare/script.js:73-76 | The ratio resolver reports an order error exactly when `calc` stops with the ordering error. |
| ChildcareBenefit.DirectExample | childcare/script.js:295-320 | W = 3,000,000, 40 → 30 hours, ratio 1 and the 2026 policy give a benefit of 625,000 and total income 2,875,000. |
| ChildcareBenefit.TwoTierExample | childcare/script.js:295-320 | W = 3,000,000, 40 → 20 hours, ratio 1, pctB 0.8 and the 2026 policy give tier A 625,000 and tier B 400,000, a benefit of 1,025,000 and total income 2,525,000. |
| ChildcareBenefit.DetailedExample | childcare/script.js:244-260 | A proportional ordinary 2,000,000 row and a fully paid 300,000 row, with hours halved, give W 2,000,000, pay before 2,300,000 and pay after 1,300,000. |
| YouthLeap.TableShape | youth-leap/script.js:8-17 | Limits strictly increase and end at the income cap 7,500. Ratios never increase and the last one is 0. Ratios lie in [0, 0.06] and match limits are non-negative. |
| YouthLeap.FirstFit | youth-leap/script.js:28 | `find` gives the first rule whose limit is at least the income, or none. Every rule before it has a smaller limit. |
| YouthLeap.FirstFitIsBracket | youth-leap/script.js:8-14 | With increasing limits, row k is found exactly when the income is above row k − 1's limit and at most row k's. |
| YouthLeap.ContributionInfo | youth-leap/script.js:19-42 | Above 7,500 the income is ineligible, with no match and not tax-free. Up to 7,500 it is eligible and tax-free. The ratio lies in [0, 0.06]. |
| YouthLeap.ContributionBracket | youth-leap/script.js:28-41 | Up to the cap a bracket always exists, so the fallback branch is never taken. The contribution is that bracket's match limit and ratio. |
| YouthLeap.RatioNonincreasingInIncome | youth-leap/script.js:8-41 | A higher income never gets a higher match ratio. |
| YouthLeap.TopBracketMatchesNothing | youth-leap/script.js:13 | Incomes in (6,000, 7,500] are eligible and tax-free with no contribution. |
| YouthLeap.MatchBase | youth-leap/script.js:83 | The matched part of a payment is at most the payment and at most the match limit, and equals one of them. |
| YouthLeap.MonthlyMatch | youth-leap/script.js:84 | The monthly contribution is floor(match limit × ratio) when the payment reaches the limit, and floor(payment × ratio) when it does not. So it lies between 0 and floor(match limit × ratio). |
| YouthLeap.GovernmentMatch | youth-leap/script.js:81-86 | For an eligible income with a positive ratio the total contribution is 60 × floor(min(payment, match limit) × ratio): 60 × floor(limit × ratio) when the payment reaches the limit, 60 × floor(payment × ratio) otherwise. It is 0 when ineligible or the ratio is 0. It always lies between 0 and 60 × floor(limit × ratio) and is a multiple of 60. |
| YouthLeap.GovernmentMatchMonotone | youth-leap/script.js:81-86 | A larger monthly payment never earns a smaller contribution. |
| YouthLeap.Interest | youth-leap/script.js:91-110 | The untaxed amount `RawInterest` is pay × 1830 × rate / 1200. Interest is floor(pay × rate% × 1.525), since 1830 payment-months at rate/1200 per month give 1.525. It is taxed by the factor 0.846 unless the account is both eligible and tax-free. |
| YouthLeap.TaxLowersInterest | youth-leap/script.js:100-110 | With a positive payment and a non-negative rate, taxed interest is non-negative and at most the untaxed interest. |
| YouthLeap.InterestNonNegative | youth-leap/script.js:91-110 | A non-negative rate never gives negative interest. |
| YouthLeap.Project | youth-leap/script.js:63-113 | There is no result exactly when the monthly payment is ≤ 0. Principal = 60 × pay. The contribution is `GovernmentMatch` and the interest is `Interest` for the bracket of the income. Grand total = principal + contribution + interest. The contribution is bounded by the bracket's maximum and is 0 above the cap. With a non-negative rate, grand total ≥ principal. |
| YouthLeap.ProjectExample | youth-leap/script.js:63-113 | Income 3,000 with 500,000 a month at 4.5% gives principal 30,000,000, contribution 1,380,000 and interest 3,431,250. |
| HousingSubscription.HomePeriodScore | housing-subscription/script.js:16-36 | The score is at most 32 and at least 2 for non-negative years. On [0, 15] it is 2 + 2 × years, so the zero case and the cap never change a selectable value. From 15 years it is 32. |
| HousingSubscription.HomePeriodMonotone | housing-subscription/script.js:16-36 | More years without a home never score less. |
| HousingSubscription.DependentsScore | housing-subscription/script.js:38-45 | The score is at most 35, at least 5 for a non-negative count, and a multiple of 5. It is 35 exactly from six dependents. |
| HousingSubscription.DependentsStrictlyIncreasing | housing-subscription/script.js:38-45 | On 0..6 each extra dependent adds points. |
| HousingSubscription.AccountPeriodScore | housing-subscription/script.js:47-65 | The score is at most 17: 1 for 0 years, 2 for 0.5, years + 2 on [1, 15]. It is at least 1 for every selectable value. |
| HousingSubscription.AccountPeriodMonotone | housing-subscription/script.js:47-65 | Over the selectable values a longer-held account never scores less. |
| HousingSubscription.AccountPeriodBetweenOptions | housing-subscription/script.js:55-64 | Off the selectable values the rule is not monotone: 0.25 years would outscore 0.5. |
| HousingSubscription.Clamp | housing-subscription/script.js:74-77 | The clamped count lies in 0..6. An in-range count is unchanged. Counts below go to 0 and counts above go to 6. |
| HousingSubscription.ClampIdempotent | housing-subscription/script.js:126-129 | Clamping twice is clamping once. |
| HousingSubscription.Calculate | housing-subscription/script.js:67-91 | The home score is `HomePeriodScore` of the years. The count is the field clamped to 0..6, and the dependents score is `DependentsScore` of that count, in [5, 35]. The account score is `AccountPeriodScore` of the years. Total = home + dependents + account score, at most 84, and at least 8 for selectable values. |
| HousingSubscription.ScoreRange | housing-subscription/script.js:67-91 | The lowest selections total 8 and the highest 84. Any dependents field from 6 up gives the same scores. |
| HousingSubscription.Load | housing-subscription/script.js:134-135 | The calculation on page load leaves the field as entered and the displayed count consistent with it. |
| HousingSubscription.Step | housing-subscription/script.js:108-131 | Every event keeps the displayed count consistent with the field and keeps an in-range field in range. A typed value leaves the clamped value. Minus changes nothing exactly when the field is ≤ 0, and otherwise lowers the field by 1. Plus changes nothing exactly when it is ≥ 6, and otherwise raises it by 1. |
| HousingSubscription.RunEventsKeepsCounter | housing-subscription/script.js:108-131 | Over any sequence of events the display stays consistent. The field stays in 0..6 once it started in range or any value was typed. |
| HousingSubscription.PlusMinusInverse | housing-subscription/script.js:108-122 | Inside the range, plus then minus, and minus then plus, restore the counter. |
| HousingSubscription.TypedIdempotent | housing-subscription/script.js:125-131 | Typing the value already in the field changes nothing. |
| Unemployment.DurationTableShape | unemployment/script.js:7-14 | Every row has two entries in [120, 270]. The priority column is never below the regular one, and each column is nondecreasing down the rows. |
| Unemployment.PeriodIndex | unemployment/script.js:17-23 | The band index lies in 0..4. The years reach the start of the band and fall short of the next band's start, with starts 1, 3, 5 and 10. |
| Unemployment.PeriodIndexCountsStarts | unemployment/script.js:17-23 | The band index is the number of band starts the years have reached. |
| Unemployment.PeriodIndexMonotone | unemployment/script.js:17-23 | More years never fall in a lower band. |
| Unemployment.MembershipYears | unemployment/script.js:71 | Insured years = years + months/12. With months in 0..11 the whole part is the years field. |
| Unemployment.Duration | unemployment/script.js:7-77 | Days lie in [120, 270]. Each band pays its row, regular then priority: under 1 year 120/120, 1 to 3 years 150/180, 3 to 5 years 180/210, 5 to 10 years 210/240, and from 10 years 240/270. |
| Unemployment.DurationMonotone | unemployment/script.js:7-77 | More insured years, or moving into the priority column, never pays fewer days. |
| Unemployment.PriorityBonus | unemployment/script.js:7-14 | Priority adds 30 days except in the first band, where it adds none. |
| Unemployment.ClampDaily | unemployment/script.js:82-92 | The daily amount lies in [63,104, 66,000]. The upper limit applies exactly when the raw amount is above it, and the lower exactly when it is below. Otherwise the raw amount is kept. |
| Unemployment.ClampIsMedian | unemployment/script.js:85-92 | The clamped amount is max(63,104, min(66,000, raw)). |
| Unemployment.ClampMonotone | unemployment/script.js:85-92 | A larger raw amount never gives a smaller clamped amount. |
| Unemployment.Calculate | unemployment/script.js:53-95 | There is no result exactly when the average wage is ≤ 0. Days lie in [120, 270] and the truncated daily amount in [63,104, 66,000]. Total = daily × days, within [63,104 × 120, 66,000 × 270]. The upper limit applies exactly above 3,300,000 a month and the lower exactly below 3,155,200. The raw daily amount `BaseDaily` is wage / 30 × 0.6, and the daily amount is 66,000 under the upper limit, 63,104 under the lower, and floor(wage / 50) otherwise. The days are `Duration` of the insured years, read in the priority column exactly when `IsPriority` holds: age ≥ 50 or disabled. |
| Unemployment.DailyMonotone | unemployment/script.js:82-94 | A higher average wage never gives a smaller daily amount. |
| Unemployment.CalculateExample | unemployment/script.js:53-95 | Age 52, 4 years 6 months and 3,000,000 a month give 210 days at the lower limit of 63,104, 13,251,840 in all. |

## Left out

- DOM reads and writes, event wiring, `alert`, the message area and the 300 ms colour animation of the housing total. Each handler is modelled as a function of its parsed inputs.
- Text parsing (`toNumber`, `parseFloat`, `parseInt`, `Number`). Inputs arrive parsed. A field read with `|| 0` is a plain number, and a field tested with `> 0` is an `Option` whose `None` stands for `NaN`.
- `NaN` in the childcare fields that `calc` never validates (ratio, threshold, tier-B percentage, caps, floor). These are plain reals, so the `NaN` figures that would follow are not represented.
- An income row whose amount does not parse is read as 0 (childcare/script.js:163). The model's item amount is that value.
- Date parsing and time zones. A date is a valid (year, month, day) triple compared lexicographically. The local-time `getMonth` and `getFullYear` of a UTC-parsed date are taken to give the same triple.
- Presentation: `fmtWon`, `fmt`, `toLocaleString`, the display-only rounding, the `showCompany` switch, the R = 0 branch's choice of which company figures to display, and the return-rate percentage of the youth projection.
- IEEE-754 rounding: all arithmetic is exact.
- Text-only outputs: the `note` of a contribution rule, the tax label of the youth projection, the limit note of the unemployment estimate (its `Limit` value is kept) and the label of an income row.
- ChildcareRatio.Round4: rounds the exact value half away from zero; `toFixed` works on the binary double, which can round a true half the other way.
- HousingSubscription.Step: the minus and plus buttons parse the field as it stands. The model's field is always a committed value, because typing reaches the model only through the change event (`Typed`).

=== FILE: calendar.dfy ===
/** Calendar dates as the childcare calculator sees them once a date field has
    been parsed: a (year, month, day) triple of the proleptic Gregorian
    calendar, compared chronologically. */
module Calendar {

  datatype Date = Date(year: int, month: int, day: int)

  predicate IsLeapYear(y: int) {
    y % 4 == 0 && (y % 100 != 0 || y % 400 == 0)
  }

  /** Length of a month in the proleptic Gregorian calendar. */
  function MonthLength(year: int, month: int): (n: int)
    requires 1 <= month <= 12
    ensures 28 <= n <= 31
    ensures month == 2 ==> (n == 29 <==> IsLeapYear(year))
    ensures month != 2 ==> (n == 30 <==> month in {4, 6, 9, 11})
    ensures month == 2 && !IsLeapYear(year) ==> n == 28
    ensures month != 2 && month !in {4, 6, 9, 11} ==> n == 31
  {
    if month == 2 then (if IsLeapYear(year) then 29 else 28)
    else if month == 4 || month == 6 || month == 9 || month == 11 then 30
    else 31
  }

  predicate ValidDate(d: Date) {
    1 <= d.month <= 12 && 1 <= d.day <= MonthLength(d.year, d.month)
  }

  /** A date that parsed successfully. */
  type CalendarDate = d: Date | ValidDate(d) witness Date(2026, 1, 1)

  /** Strict chronological order: for parsed date strings both sides are
      midnight UTC, so JavaScript's `a < b` on `Date` objects is the
      lexicographic order of (year, month, day). */
  predicate Before(a: Date, b: Date) {
    a.year < b.year
    || (a.year == b.year && a.month < b.month)
    || (a.year == b.year && a.month == b.month && a.day < b.day)
  }

  predicate SameMonth(a: Date, b: Date) {
    a.year == b.year && a.month == b.month
  }

  /** The year JavaScript's `new Date(year, month, day)` actually uses: a year
      from 0 to 99 is read as 1900 to 1999. */
  function ConstructorYear(year: int): (y: int)
    ensures 0 <= year <= 99 ==> y == 1900 + year
    ensures (year < 0 || year > 99) ==> y == year
  {
    if 0 <= year <= 99 then 1900 + year else year
  }

  /** `daysInMonth(year, month)`: the day of `new Date(year, month, 0)`, that
      is, the last day of month `month` (1 to 12) of the year the constructor
      uses. */
  function DaysInMonth(year: int, month: int): (n: int)
    requires 1 <= month <= 12
    ensures 28 <= n <= 31
    ensures month == 2 ==> (n == 29 <==> IsLeapYear(ConstructorYear(year)))
  {
    MonthLength(ConstructorYear(year), month)
  }

  /** Outside the years 0 to 99 the constructor's month length is the true
      one; inside them only year 0 differs, and only in February (year 0 is a
      leap year, 1900 is not). */
  lemma DaysInMonthIsMonthLength(year: int, month: int)
    requires 1 <= month <= 12
    ensures !(year == 0 && month == 2) ==> DaysInMonth(year, month) == MonthLength(year, month)
    ensures year == 0 && month == 2 ==> DaysInMonth(year, month) == 28 && MonthLength(year, month) == 29
  {
    if 1 <= year <= 99 {
      assert IsLeapYear(year) == IsLeapYear(1900 + year);
    }
  }

  lemma BeforeIsStrictTotalOrder(a: Date, b: Date, c: Date)
    ensures !Before(a, a)
    ensures Before(a, b) ==> !Before(b, a)
    ensures Before(a, b) && Before(b, c) ==> Before(a, c)
    ensures a == b || Before(a, b) || Before(b, a)
  {
  }
}

=== FILE: childcare_benefit.dfy ===
/** The childcare reduced-working-hours benefit: validation of the form, the
    company's pay before and after the reduction, the two-tier benefit with
    its monthly floor, and the optional offset against a reference wage. */
module ChildcareBenefit {
  import opened Fields
  import opened JsMath
  import opened Calendar
  import opened ChildcarePolicy
  import opened ChildcareRatio
  import opened ChildcareIncome

  /** The two ways of giving the wage: one ordinary-wage figure with an
      optional company-paid total, or the itemised income list. */
  datatype WageInput =
    | Direct(wage: Option<real>, companyDirect: Option<real>)
    | Detailed(items: seq<IncomeItem>)

  /** The form as `calc` reads it. Fields that are checked with `> 0` are
      optional (empty or not a number reads as `None`); the proration ratio,
      the policy fields and the tier-B percentage are taken as numbers. */
  datatype Form = Form(
    start: Option<CalendarDate>,
    end: Option<CalendarDate>,
    h0: Option<real>,
    h1: Option<real>,
    ratio: real,
    policy: Policy,
    pctB: real,
    wages: WageInput,
    applyOffset: bool,
    offsetBase: Option<real>)

  datatype CalcError =
    | EndBeforeStart
    | HoursBeforeNotPositive
    | HoursAfterNotPositive
    | HoursAfterAboveBefore
    | WageMissing
    | NoIncomeItems
    | OrdinaryWageZero

  /** Every figure `calc` reports: the ordinary-wage base W, the reduced
      hours, the prorated tier-A and tier-B amounts, the benefit, the
      company's prorated pay before and after the reduction, and the company
      pay plus the benefit. */
  datatype Benefit = Benefit(
    wageBase: real,
    reducedHours: real,
    tierA: real,
    tierB: real,
    benefit: real,
    companyBefore: real,
    companyAfter: real,
    totalIncome: real)

  datatype Outcome = Errors(errors: seq<CalcError>) | Computed(result: Benefit)

  // ---------------------------------------------------------------------
  // Validation

  predicate DatesReversed(f: Form) {
    f.start.Some? && f.end.Some? && Before(f.end.value, f.start.value)
  }

  /** When each error applies, stated check by check. A reversed date range
      stops `calc` before any other check. */
  predicate Fails(f: Form, e: CalcError) {
    match e
    case EndBeforeStart => DatesReversed(f)
    case HoursBeforeNotPositive => !DatesReversed(f) && !Positive(f.h0)
    case HoursAfterNotPositive => !DatesReversed(f) && !Positive(f.h1)
    case HoursAfterAboveBefore => !DatesReversed(f) && !AtMost(f.h1, f.h0)
    case WageMissing => !DatesReversed(f) && f.wages.Direct? && !Positive(f.wages.wage)
    case NoIncomeItems => !DatesReversed(f) && f.wages.Detailed? && |f.wages.items| == 0
    case OrdinaryWageZero => !DatesReversed(f) && f.wages.Detailed? && !(SumOrdinary(f.wages.items) > 0.0)
  }

  /** The position of each check in `calc`. */
  function Rank(e: CalcError): nat {
    match e
    case EndBeforeStart => 0
    case HoursBeforeNotPositive => 1
    case HoursAfterNotPositive => 2
    case HoursAfterAboveBefore => 3
    case WageMissing => 4
    case NoIncomeItems => 5
    case OrdinaryWageZero => 6
  }

  predicate InCheckOrder(errs: seq<CalcError>) {
    forall i, j :: 0 <= i < j < |errs| ==> Rank(errs[i]) < Rank(errs[j])
  }

  function Check(failed: bool, e: CalcError): (errs: seq<CalcError>)
    ensures forall x :: x in errs <==> failed && x == e
    ensures InCheckOrder(errs)
  {
    if failed then [e] else []
  }

  lemma OrderedConcat(a: seq<CalcError>, b: seq<CalcError>, cut: nat)
    requires InCheckOrder(a) && InCheckOrder(b)
    requires forall x :: x in a ==> Rank(x) < cut
    requires forall y :: y in b ==> cut <= Rank(y)
    ensures InCheckOrder(a + b)
  {
    forall i, j | 0 <= i < j < |a + b|
      ensures Rank((a + b)[i]) < Rank((a + b)[j])
    {
      if j < |a| {
      } else if i >= |a| {
        assert (a + b)[i] == b[i - |a|] && (a + b)[j] == b[j - |a|];
      } else {
        assert (a + b)[i] == a[i] && a[i] in a;
        assert (a + b)[j] == b[j - |a|] && b[j - |a|] in b;
      }
    }
  }

  /** The three checks on the hours, in order. */
  function HourErrors(h0: Option<real>, h1: Option<real>): (errs: seq<CalcError>)
    ensures forall e :: e in errs <==>
      (e == HoursBeforeNotPositive && !Positive(h0))
      || (e == HoursAfterNotPositive && !Positive(h1))
      || (e == HoursAfterAboveBefore && !AtMost(h1, h0))
    ensures InCheckOrder(errs)
  {
    var first := Check(!Positive(h0), HoursBeforeNotPositive);
    var second := Check(!Positive(h1), HoursAfterNotPositive);
    var third := Check(!AtMost(h1, h0), HoursAfterAboveBefore);
    OrderedConcat(first, second, 2);
    OrderedConcat(first + second, third, 3);
    first + second + third
  }

  /** The checks on the wage data: a positive wage in direct mode; at least
      one item and a positive ordinary-wage sum in detailed mode. */
  function WageErrors(wages: WageInput): (errs: seq<CalcError>)
    ensures forall e :: e in errs <==>
      (e == WageMissing && wages.Direct? && !Positive(wages.wage))
      || (e == NoIncomeItems && wages.Detailed? && |wages.items| == 0)
      || (e == OrdinaryWageZero && wages.Detailed? && !(SumOrdinary(wages.items) > 0.0))
    ensures InCheckOrder(errs)
  {
    match wages
    case Direct(wage, _) => Check(!Positive(wage), WageMissing)
    case Detailed(items) =>
      var first := Check(|items| == 0, NoIncomeItems);
      var second := Check(!(SumOrdinary(items) > 0.0), OrdinaryWageZero);
      OrderedConcat(first, second, 6);
      first + second
  }

  /** The error list of `calc`, in the order its checks run. */
  function Validate(f: Form): (errs: seq<CalcError>)
    ensures forall e :: e in errs <==> Fails(f, e)
    ensures InCheckOrder(errs)
    ensures DatesReversed(f) ==> errs == [EndBeforeStart]
  {
    if DatesReversed(f) then [EndBeforeStart]
    else
      var hours := HourErrors(f.h0, f.h1);
      var wage := WageErrors(f.wages);
      OrderedConcat(hours, wage, 4);
      ChecksJoined(f, hours, wage);
      hours + wage
  }

  lemma ChecksJoined(f: Form, hours: seq<CalcError>, wage: seq<CalcError>)
    requires !DatesReversed(f)
    requires hours == HourErrors(f.h0, f.h1) && wage == WageErrors(f.wages)
    ensures forall e :: e in hours + wage <==> Fails(f, e)
  {
    forall e
      ensures e in hours + wage <==> Fails(f, e)
    {
      assert e in hours + wage <==> e in hours || e in wage;
    }
  }

  /** The membership and the order of an error list fix the list: so
      `Validate` is the only list in check order holding exactly the failed
      checks. */
  lemma {:induction false} CheckOrderDeterminesList(a: seq<CalcError>, b: seq<CalcError>)
    requires InCheckOrder(a) && InCheckOrder(b)
    requires forall e :: e in a <==> e in b
    ensures a == b
    decreases |a|
  {
    SameElementsSameEmptiness(a, b);
    if |a| > 0 {
      FirstIsLeast(a);
      FirstIsLeast(b);
      assert a[0] in b && b[0] in a;
      RankInjective(a[0], b[0]);
      forall e | e in a[1..]
        ensures e in b[1..]
      {
        var i :| 1 <= i < |a| && a[i] == e;
        assert e in a && e in b;
        var k :| 0 <= k < |b| && b[k] == e;
        assert k != 0;
      }
      forall e | e in b[1..]
        ensures e in a[1..]
      {
        var i :| 1 <= i < |b| && b[i] == e;
        assert e in b && e in a;
        var k :| 0 <= k < |a| && a[k] == e;
        assert k != 0;
      }
      CheckOrderDeterminesList(a[1..], b[1..]);
      assert a == [a[0]] + a[1..];
      assert b == [b[0]] + b[1..];
    }
  }

  lemma SameElementsSameEmptiness(a: seq<CalcError>, b: seq<CalcError>)
    requires forall e :: e in a <==> e in b
    ensures |a| == 0 <==> |b| == 0
  {
    if |a| > 0 {
      assert a[0] in b;
    }
    if |b| > 0 {
      assert b[0] in a;
    }
  }

  lemma FirstIsLeast(a: seq<CalcError>)
    requires InCheckOrder(a) && |a| > 0
    ensures forall e :: e in a ==> Rank(a[0]) <= Rank(e)
  {
  }

  lemma RankInjective(x: CalcError, y: CalcError)
    requires Rank(x) == Rank(y)
    ensures x == y
  {
  }

  /** A form passes validation exactly when the hours are positive and do
      not grow, the dates are in order and the wage base can be positive. */
  predicate ValidForm(f: Form) {
    && !DatesReversed(f)
    && Positive(f.h0) && Positive(f.h1) && f.h1.value <= f.h0.value
    && match f.wages
       case Direct(wage, _) => Positive(wage)
       case Detailed(items) => |items| > 0 && SumOrdinary(items) > 0.0
  }

  lemma ValidFormHasNoErrors(f: Form)
    ensures Validate(f) == [] <==> ValidForm(f)
  {
    if !ValidForm(f) {
      if DatesReversed(f) {
        assert EndBeforeStart in Validate(f);
      } else if !Positive(f.h0) {
        assert Fails(f, HoursBeforeNotPositive);
      } else if !Positive(f.h1) {
        assert Fails(f, HoursAfterNotPositive);
      } else if !AtMost(f.h1, f.h0) {
        assert Fails(f, HoursAfterAboveBefore);
      } else if f.wages.Direct? {
        assert Fails(f, WageMissing);
      } else if |f.wages.items| == 0 {
        assert Fails(f, NoIncomeItems);
      } else {
        assert Fails(f, OrdinaryWageZero);
      }
    }
  }

  // ---------------------------------------------------------------------
  // Company pay

  /** The wage base W and the company's prorated pay before and after the
      reduction. */
  datatype CompanyPay = CompanyPay(wageBase: real, before: real, after: real)

  /** In direct mode a positive company-paid total replaces the wage as the
      company's base. */
  function DirectCompanyBase(wage: real, companyDirect: Option<real>): (base: real)
    ensures Positive(companyDirect) ==> base == companyDirect.value
    ensures !Positive(companyDirect) ==> base == wage
  {
    if Positive(companyDirect) then companyDirect.value else wage
  }

  function Company(wages: WageInput, h0: real, h1: real, ratio: real): (c: CompanyPay)
    requires h0 > 0.0
    requires wages.Direct? ==> wages.wage.Some?
    ensures wages.Detailed? ==> c.wageBase == SumOrdinary(wages.items)
    ensures wages.Detailed? ==> c.before == SumAll(wages.items) * ratio
    ensures wages.Direct? ==> c.wageBase == wages.wage.value
    ensures wages.Direct? ==>
      c.before == DirectCompanyBase(wages.wage.value, wages.companyDirect) * ratio
    ensures wages.Direct? ==> c.after * h0 == c.before * h1
    ensures wages.Detailed? ==> c.after == SumAfter(wages.items, h1 / h0) * ratio
  {
    match wages
    case Direct(wage, companyDirect) =>
      var base := DirectCompanyBase(wage.value, companyDirect);
      CompanyPay(wage.value, base * ratio, base * (h1 / h0) * ratio)
    case Detailed(items) =>
      CompanyPay(SumOrdinary(items), SumAll(items) * ratio, SumAfter(items, h1 / h0) * ratio)
  }

  /** With no negative amounts, a non-negative ratio and hours that do not
      grow, the company pays no more after the reduction than before. */
  lemma CompanyPayDoesNotGrow(wages: WageInput, h0: real, h1: real, ratio: real)
    requires 0.0 < h1 <= h0
    requires ratio >= 0.0
    requires wages.Direct? ==> Positive(wages.wage)
    requires wages.Detailed? ==> NonNegative(wages.items)
    ensures 0.0 <= Company(wages, h0, h1, ratio).after <= Company(wages, h0, h1, ratio).before
  {
    var factor := h1 / h0;
    assert 0.0 < factor <= 1.0;
    match wages
    case Direct(wage, companyDirect) =>
      var base := DirectCompanyBase(wage.value, companyDirect);
      assert base > 0.0;
      assert base * factor <= base * 1.0;
      assert base * factor * ratio <= base * ratio;
    case Detailed(items) =>
      PaidAfterWithinTotal(items, factor);
      assert SumAfter(items, factor) * ratio <= SumAll(items) * ratio;
  }

  // ---------------------------------------------------------------------
  // Tiers, floor and offset

  datatype TierHours = TierHours(a: real, b: real)

  /** The reduced hours R split at the threshold: up to the threshold in
      tier A, the rest in tier B. */
  function SplitHours(reduced: real, threshold: real): (t: TierHours)
    ensures t.a + t.b == reduced
    ensures t.a <= threshold && t.a <= reduced
    ensures t.b >= 0.0
    ensures t.b > 0.0 <==> reduced > threshold
    ensures threshold <= reduced ==> t.a == threshold && t.b == reduced - threshold
    ensures reduced <= threshold ==> t.a == reduced && t.b == 0.0
    ensures threshold >= 0.0 && reduced > 0.0 ==> t.a >= 0.0
  {
    TierHours(Min(threshold, reduced), Max(reduced - threshold, 0.0))
  }

  /** A tier's wage base: the wage (scaled by the tier-B percentage for tier
      B), but no more than the tier's cap. */
  function Capped(amount: real, cap: real): (base: real)
    ensures base <= cap && base <= amount
    ensures base == amount || base == cap
  {
    Min(amount, cap)
  }

  /** The monthly benefit before the offset: the prorated tiers, but never
      less than the prorated floor. */
  function FlooredBenefit(rawTotal: real, minTotal: real): (b: real)
    ensures b >= minTotal && b >= rawTotal
    ensures b == minTotal || b == rawTotal
  {
    Max(rawTotal, minTotal)
  }

  /** The offset reference: a positive offset base, else the wage base W. */
  function OffsetReference(offsetBase: Option<real>, wageBase: real): (base: real)
    ensures Positive(offsetBase) ==> base == offsetBase.value
    ensures !Positive(offsetBase) ==> base == wageBase
  {
    if Positive(offsetBase) then offsetBase.value else wageBase
  }

  /** Trims the benefit by whatever company pay plus benefit exceeds the
      prorated reference, never below zero. */
  function Offset(benefit: real, companyAfter: real, reference: real): (b: real)
    ensures companyAfter + b <= Max(reference, companyAfter)
    ensures benefit >= 0.0 ==> 0.0 <= b <= benefit
    ensures companyAfter + benefit <= reference ==> b == benefit
  {
    var sum := companyAfter + benefit;
    if sum > reference then Max(0.0, benefit - (sum - reference)) else benefit
  }

  /** The offset keeps as much of the benefit as fits in the headroom left
      by the company's pay. */
  lemma OffsetIsHeadroomClamp(benefit: real, companyAfter: real, reference: real)
    requires benefit >= 0.0
    ensures Offset(benefit, companyAfter, reference) == Min(benefit, Max(0.0, reference - companyAfter))
  {
  }

  /** Applying the offset a second time changes nothing. */
  lemma OffsetIdempotent(benefit: real, companyAfter: real, reference: real)
    ensures Offset(Offset(benefit, companyAfter, reference), companyAfter, reference)
         == Offset(benefit, companyAfter, reference)
  {
  }

  // ---------------------------------------------------------------------
  // The calculation

  /** The monthly tier amounts A and B before proration: each tier's capped
      wage base times its share of the pre-reduction hours. */
  datatype TierAmounts = TierAmounts(a: real, b: real)

  function Tiers(f: Form, wageBase: real, h0: real, reduced: real): (t: TierAmounts)
    requires h0 > 0.0
  {
    var hours := SplitHours(reduced, f.policy.threshold);
    var baseA := Capped(wageBase, f.policy.capA);
    var baseB := Capped(wageBase * f.pctB, f.policy.capB);
    TierAmounts(baseA * (hours.a / h0), baseB * (hours.b / h0))
  }

  /** Tier A is the wage base capped at capA, times the reduced hours up to
      the threshold as a share of the pre-reduction hours. Tier B is the wage
      base scaled by pctB and capped at capB, times the reduced hours above
      the threshold as a share of the pre-reduction hours, and is zero when
      the reduction does not pass the threshold. */
  lemma TiersByThreshold(f: Form, wageBase: real, h0: real, reduced: real)
    requires h0 > 0.0
    ensures reduced <= f.policy.threshold ==>
      Tiers(f, wageBase, h0, reduced) == TierAmounts(Min(wageBase, f.policy.capA) * (reduced / h0), 0.0)
    ensures f.policy.threshold <= reduced ==>
      Tiers(f, wageBase, h0, reduced)
        == TierAmounts(Min(wageBase, f.policy.capA) * (f.policy.threshold / h0),
                       Min(wageBase * f.pctB, f.policy.capB) * ((reduced - f.policy.threshold) / h0))
  {
    var hours := SplitHours(reduced, f.policy.threshold);
    assert hours.b == 0.0 ==> Capped(wageBase * f.pctB, f.policy.capB) * (hours.b / h0) == 0.0;
  }

  /** How the benefit is settled from the tier amounts A and B, the floor,
      the ratio, the company's pay after the reduction and the offset
      reference, each of A + B, the floor and the reference prorated by the
      ratio. Without the offset the benefit is the floored amount, the larger
      of the prorated tiers and the prorated floor. With the offset the
      floored amount is kept whole when it fits under the prorated reference.
      Otherwise as much of it is kept as the headroom above the company's pay
      allows. So company pay plus benefit stays within the reference unless
      the company's pay alone exceeds it. With a non-negative prorated floor
      the benefit also stays between zero and the floored amount. */
  predicate Settled(applyOffset: bool, a: real, b: real, floor: real, ratio: real, companyAfter: real,
                    base: real, benefit: real)
  {
    var floored := Max((a + b) * ratio, floor * ratio);
    var reference := base * ratio;
    if applyOffset then
      (companyAfter + floored <= reference ==> benefit == floored)
      && (floored >= 0.0 ==> benefit == Min(floored, Max(0.0, reference - companyAfter)))
      && companyAfter + benefit <= Max(reference, companyAfter)
      && (floor * ratio >= 0.0 ==> 0.0 <= benefit <= floored)
    else benefit == floored
  }

  /** The benefit from the tier amounts, the floor, the ratio, the company's
      pay after the reduction and the offset reference: the floored benefit,
      then the offset when it is switched on. */
  function Settle(applyOffset: bool, a: real, b: real, floor: real, ratio: real, companyAfter: real,
                  base: real): real
  {
    var floored := FlooredBenefit((a + b) * ratio, floor * ratio);
    if applyOffset then Offset(floored, companyAfter, base * ratio) else floored
  }

  /** The floor and the offset settle the benefit by the rule. */
  lemma SettleFollowsRule(applyOffset: bool, a: real, b: real, floor: real, ratio: real,
                          companyAfter: real, base: real)
    ensures Settled(applyOffset, a, b, floor, ratio, companyAfter, base,
                    Settle(applyOffset, a, b, floor, ratio, companyAfter, base))
  {
    var floored := FlooredBenefit((a + b) * ratio, floor * ratio);
    if applyOffset && floored >= 0.0 {
      OffsetIsHeadroomClamp(floored, companyAfter, base * ratio);
    }
  }

  /** The figures `calc` reports once the hours are reduced (R = H0 - H1 > 0):
      the tiers, the floor and, when it is switched on, the offset. */
  function Reduced(f: Form, c: CompanyPay, t: TierAmounts, reduced: real): (r: Benefit)
    ensures r.reducedHours == reduced
    ensures r.totalIncome == r.companyAfter + r.benefit
    ensures r.wageBase == c.wageBase && r.companyBefore == c.before && r.companyAfter == c.after
    ensures r.tierA == t.a * f.ratio && r.tierB == t.b * f.ratio
    ensures Settled(f.applyOffset, t.a, t.b, f.policy.floor, f.ratio, c.after,
                    OffsetReference(f.offsetBase, c.wageBase), r.benefit)
  {
    SettleFollowsRule(f.applyOffset, t.a, t.b, f.policy.floor, f.ratio, c.after,
                      OffsetReference(f.offsetBase, c.wageBase));
    var benefit := Settle(f.applyOffset, t.a, t.b, f.policy.floor, f.ratio, c.after,
                          OffsetReference(f.offsetBase, c.wageBase));
    Benefit(c.wageBase, reduced, t.a * f.ratio, t.b * f.ratio, benefit, c.before, c.after, c.after + benefit)
  }

  /** The figures of a form that passes validation. */
  function Figures(f: Form): (r: Benefit)
    requires ValidForm(f)
    ensures var c := Company(f.wages, f.h0.value, f.h1.value, f.ratio);
      r.wageBase == c.wageBase && r.companyBefore == c.before && r.companyAfter == c.after
    ensures r.totalIncome == r.companyAfter + r.benefit
    ensures r.reducedHours == f.h0.value - f.h1.value >= 0.0
    ensures r.reducedHours == 0.0 ==>
      r.benefit == r.tierA == r.tierB == 0.0 && r.totalIncome == r.companyAfter
    ensures r.reducedHours > 0.0 ==>
      r == Reduced(f, Company(f.wages, f.h0.value, f.h1.value, f.ratio),
                   Tiers(f, r.wageBase, f.h0.value, r.reducedHours), r.reducedHours)
  {
    var h0, h1 := f.h0.value, f.h1.value;
    var c := Company(f.wages, h0, h1, f.ratio);
    var reduced := h0 - h1;
    if !(reduced > 0.0) then
      Benefit(c.wageBase, 0.0, 0.0, 0.0, 0.0, c.before, c.after, c.after)
    else
      Reduced(f, c, Tiers(f, c.wageBase, h0, reduced), reduced)
  }

  /** `calc`: the error list when validation fails, otherwise every figure. */
  function Calc(f: Form): (o: Outcome)
    ensures o.Computed? <==> ValidForm(f)
    ensures o.Errors? ==> o.errors == Validate(f) != []
    ensures DatesReversed(f) ==> o == Errors([EndBeforeStart])
    ensures o.Computed? ==> o.result == Figures(f)
  {
    var errs := Validate(f);
    ValidFormHasNoErrors(f);
    if |errs| > 0 then Errors(errs) else Computed(Figures(f))
  }

  /** What `calc` sees after the two auto-fill steps it runs first: with
      automatic policy on, the policy fields take the table entry for the
      start date (when it parses); with automatic ratio on, the ratio field
      takes the rounded derived ratio (when one is derived). Nothing else
      changes. */
  function AutoFill(f: Form, autoPolicy: bool, autoRatio: bool): (g: Form)
    ensures g.policy == (if autoPolicy && f.start.Some? then PolicyOn(f.start.value) else f.policy)
    ensures autoRatio ==> g.ratio == RatioField(f.ratio, RatioByDates(f.start, f.end))
    ensures !autoRatio ==> g.ratio == f.ratio
    ensures g.(policy := f.policy, ratio := f.ratio) == f
  {
    var policy := if autoPolicy then PolicyByStartDate(f.start).GetOr(f.policy) else f.policy;
    var ratio := if autoRatio then RatioField(f.ratio, RatioByDates(f.start, f.end)) else f.ratio;
    f.(policy := policy, ratio := ratio)
  }

  /** One run of `calc` on the form as the user left it. */
  function Run(f: Form, autoPolicy: bool, autoRatio: bool): (o: Outcome)
    ensures DatesReversed(f) ==> o == Errors([EndBeforeStart])
    ensures o.Computed? <==> ValidForm(f)
    ensures o.Computed? ==> o.result == Figures(AutoFill(f, autoPolicy, autoRatio))
    ensures o.Errors? ==> o.errors == Validate(AutoFill(f, autoPolicy, autoRatio))
    ensures o.Computed? && autoRatio && RatioByDates(f.start, f.end).Ratio? ==> 0.0 <= AutoFill(f, autoPolicy, autoRatio).ratio <= 1.0
  {
    var g := AutoFill(f, autoPolicy, autoRatio);
    assert DatesReversed(g) == DatesReversed(f);
    assert ValidForm(g) == ValidForm(f);
    Calc(g)
  }

  /** The ratio resolver's ordering error and `calc`'s agree: when one
      reports the end before the start, so does the other. */
  lemma OrderErrorAgrees(f: Form, autoPolicy: bool)
    ensures RatioByDates(f.start, f.end) == OrderError <==> Run(f, autoPolicy, true) == Errors([EndBeforeStart])
  {
    var g := AutoFill(f, autoPolicy, true);
    if !DatesReversed(f) {
      assert !DatesReversed(g);
      assert !Fails(g, EndBeforeStart);
      assert EndBeforeStart !in Validate(g);
    }
  }

  /** Direct mode, W = 3,000,000, 40 hours reduced to 30, a ratio of 1 and
      the 2026 policy: ten reduced hours all in tier A, giving a quarter of
      the 2,500,000 cap, above the 500,000 floor. */
  lemma DirectExample()
    ensures Calc(Form(None, None, Some(40.0), Some(30.0), 1.0,
                      Policy(10.0, 2500000.0, 1600000.0, 500000.0), 0.8,
                      Direct(Some(3000000.0), None), false, None))
         == Computed(Benefit(3000000.0, 10.0, 625000.0, 0.0, 625000.0, 3000000.0, 2250000.0, 2875000.0))
  {
    var f := Form(None, None, Some(40.0), Some(30.0), 1.0,
                  Policy(10.0, 2500000.0, 1600000.0, 500000.0), 0.8,
                  Direct(Some(3000000.0), None), false, None);
    assert ValidForm(f);
    var c := Company(f.wages, 40.0, 30.0, 1.0);
    assert c == CompanyPay(3000000.0, 3000000.0, 2250000.0);
    assert SplitHours(10.0, 10.0) == TierHours(10.0, 0.0);
    assert Tiers(f, 3000000.0, 40.0, 10.0) == TierAmounts(625000.0, 0.0);
    assert Reduced(f, c, TierAmounts(625000.0, 0.0), 10.0) == Benefit(3000000.0, 10.0, 625000.0, 0.0, 625000.0, 3000000.0, 2250000.0, 2875000.0);
  }

  /** Direct mode past the threshold: a wage of 3,000,000 with hours cut from
      40 to 20 under the 2026 policy, so both tiers are paid. */
  lemma TwoTierExample()
    ensures Calc(Form(None, None, Some(40.0), Some(20.0), 1.0,
                      Policy(10.0, 2500000.0, 1600000.0, 500000.0), 0.8,
                      Direct(Some(3000000.0), None), false, None))
         == Computed(Benefit(3000000.0, 20.0, 625000.0, 400000.0, 1025000.0, 3000000.0, 1500000.0, 2525000.0))
  {
    var f := Form(None, None, Some(40.0), Some(20.0), 1.0,
                  Policy(10.0, 2500000.0, 1600000.0, 500000.0), 0.8,
                  Direct(Some(3000000.0), None), false, None);
    assert ValidForm(f);
    var c := Company(f.wages, 40.0, 20.0, 1.0);
    assert c == CompanyPay(3000000.0, 3000000.0, 1500000.0);
    assert SplitHours(20.0, 10.0) == TierHours(10.0, 10.0);
    assert Tiers(f, 3000000.0, 40.0, 20.0) == TierAmounts(625000.0, 400000.0);
    assert Reduced(f, c, TierAmounts(625000.0, 400000.0), 20.0) == Benefit(3000000.0, 20.0, 625000.0, 400000.0, 1025000.0, 3000000.0, 1500000.0, 2525000.0);
  }

  /** Detailed mode: a proportional ordinary item of 2,000,000 and a fully
      paid non-ordinary item of 300,000, with hours halved. */
  lemma DetailedExample()
    ensures Company(Detailed([IncomeItem(2000000.0, true, Proportional), IncomeItem(300000.0, false, FullPay)]), 40.0, 20.0, 1.0)
         == CompanyPay(2000000.0, 2300000.0, 1300000.0)
  {
  }
}

=== FILE: childcare_income.dfy ===
/** The itemised income list of the childcare calculator's detailed mode:
    each item has a monthly amount, a flag saying whether it counts towards
    the ordinary wage, and how the company pays it once hours are reduced. */
module ChildcareIncome {

  /** `proportional` pays the item in proportion to the remaining hours,
      `full` pays it whole, any other choice (`zero`) pays nothing. */
  datatype PayMode = Proportional | FullPay | NoPay

  /** An item as read from one table row; an amount that did not parse is
      read as 0. The row's label plays no part in any figure. */
  datatype IncomeItem = IncomeItem(amount: real, isOrdinary: bool, payMode: PayMode)

  /** Which figure of an item a sum adds up: its amount, its amount when it
      is ordinary wage, or what the company pays for it after the reduction
      (with `factor` = H1/H0). */
  datatype Part = Amount | OrdinaryAmount | AfterReduction(factor: real)

  /** What the company pays for an item after the reduction. */
  function PaidAfter(factor: real, item: IncomeItem): (p: real)
    ensures item.amount >= 0.0 && 0.0 <= factor <= 1.0 ==> 0.0 <= p <= item.amount
  {
    ScaleWithin(item.amount, factor);
    match item.payMode
    case Proportional => item.amount * factor
    case FullPay => item.amount
    case NoPay => 0.0
  }

  function PartOf(part: Part, item: IncomeItem): real {
    match part
    case Amount => item.amount
    case OrdinaryAmount => if item.isOrdinary then item.amount else 0.0
    case AfterReduction(factor) => PaidAfter(factor, item)
  }

  /** The sum of one part over the items, as `Array.prototype.reduce` with
      initial value 0 computes it. */
  function Total(items: seq<IncomeItem>, part: Part): real {
    if |items| == 0 then 0.0 else PartOf(part, items[0]) + Total(items[1..], part)
  }

  function SumAll(items: seq<IncomeItem>): real {
    Total(items, Amount)
  }

  function SumOrdinary(items: seq<IncomeItem>): real {
    Total(items, OrdinaryAmount)
  }

  function SumAfter(items: seq<IncomeItem>, factor: real): real {
    Total(items, AfterReduction(factor))
  }

  predicate NonNegative(items: seq<IncomeItem>) {
    forall i :: 0 <= i < |items| ==> items[i].amount >= 0.0
  }

  lemma {:induction false} TotalAppend(a: seq<IncomeItem>, b: seq<IncomeItem>, part: Part)
    ensures Total(a + b, part) == Total(a, part) + Total(b, part)
  {
    if |a| > 0 {
      assert (a + b)[1..] == a[1..] + b;
      TotalAppend(a[1..], b, part);
    } else {
      assert a + b == b;
    }
  }

  /** Taking one item out of the list takes its part out of the total. */
  lemma TotalWithout(b: seq<IncomeItem>, k: nat, part: Part)
    requires k < |b|
    ensures Total(b, part) == PartOf(part, b[k]) + Total(b[..k] + b[k + 1..], part)
  {
    var front, back := b[..k], b[k + 1..];
    assert b == front + ([b[k]] + back);
    TotalAppend(front, [b[k]] + back, part);
    TotalAppend(front, back, part);
    assert ([b[k]] + back)[1..] == back;
    assert Total([b[k]] + back, part) == PartOf(part, b[k]) + Total(back, part);
  }

  lemma MultisetWithout(b: seq<IncomeItem>, k: nat)
    requires k < |b|
    ensures multiset(b[..k] + b[k + 1..]) == multiset(b) - multiset{b[k]}
  {
    assert b == b[..k] + [b[k]] + b[k + 1..];
  }

  /** Matching the first item of `a` with an equal item of `b` leaves two
      rearrangements of each other. */
  lemma RestsArePermutations(a: seq<IncomeItem>, b: seq<IncomeItem>, k: nat)
    requires multiset(a) == multiset(b)
    requires 0 < |a| && k < |b| && b[k] == a[0]
    ensures multiset(a[1..]) == multiset(b[..k] + b[k + 1..])
  {
    MultisetWithout(b, k);
    assert a == [a[0]] + a[1..];
    assert multiset(a) == multiset{a[0]} + multiset(a[1..]);
  }

  /** The order of the rows does not matter: any rearrangement of the items
      gives the same sums. */
  lemma {:induction false} TotalPermutation(a: seq<IncomeItem>, b: seq<IncomeItem>, part: Part)
    requires multiset(a) == multiset(b)
    ensures Total(a, part) == Total(b, part)
    decreases |a|
  {
    if |a| > 0 {
      assert a[0] in multiset(b);
      var k :| 0 <= k < |b| && b[k] == a[0];
      RestsArePermutations(a, b, k);
      TotalPermutation(a[1..], b[..k] + b[k + 1..], part);
      TotalWithout(b, k, part);
    } else {
      assert multiset(b) == multiset{};
    }
  }

  /** With no negative amounts, the ordinary wage is part of the total. */
  lemma {:induction false} OrdinaryWithinTotal(items: seq<IncomeItem>)
    requires NonNegative(items)
    ensures 0.0 <= SumOrdinary(items) <= SumAll(items)
  {
    if |items| > 0 {
      OrdinaryWithinTotal(items[1..]);
    }
  }

  /** With no negative amounts and hours that do not grow, the company never
      pays more after the reduction than before it. */
  lemma {:induction false} PaidAfterWithinTotal(items: seq<IncomeItem>, factor: real)
    requires NonNegative(items)
    requires 0.0 <= factor <= 1.0
    ensures 0.0 <= SumAfter(items, factor) <= SumAll(items)
  {
    if |items| > 0 {
      PaidAfterWithinTotal(items[1..], factor);
      assert SumAfter(items, factor) == PaidAfter(factor, items[0]) + SumAfter(items[1..], factor);
    }
  }

  /** Scaling a non-negative amount by a factor in [0, 1] keeps it between
      zero and the amount. */
  lemma ScaleWithin(x: real, factor: real)
    ensures x >= 0.0 && 0.0 <= factor <= 1.0 ==> 0.0 <= x * factor <= x
  {
    if x >= 0.0 && 0.0 <= factor <= 1.0 {
      assert x - x * factor == x * (1.0 - factor);
    }
  }

  /** When every item is paid in proportion, the pay after the reduction is
      the total scaled by H1/H0. */
  lemma {:induction false} AllProportionalScales(items: seq<IncomeItem>, factor: real)
    requires forall i :: 0 <= i < |items| ==> items[i].payMode == Proportional
    ensures SumAfter(items, factor) == factor * SumAll(items)
  {
    if |items| > 0 {
      AllProportionalScales(items[1..], factor);
    }
  }

  /** When every item is paid in full, the reduction changes nothing. */
  lemma {:induction false} AllFullPayUnchanged(items: seq<IncomeItem>, factor: real)
    requires forall i :: 0 <= i < |items| ==> items[i].payMode == FullPay
    ensures SumAfter(items, factor) == SumAll(items)
  {
    if |items| > 0 {
      AllFullPayUnchanged(items[1..], factor);
    }
  }

  /** Rows that are not paid during the reduction contribute nothing after
      it. */
  lemma {:induction false} AllNoPayZero(items: seq<IncomeItem>, factor: real)
    requires forall i :: 0 <= i < |items| ==> items[i].payMode == NoPay
    ensures SumAfter(items, factor) == 0.0
  {
    if |items| > 0 {
      AllNoPayZero(items[1..], factor);
    }
  }
}

=== FILE: childcare_policy.dfy ===
/** The childcare calculator's policy table: the statutory parameters of the
    reduced-working-hours benefit in force on the start date of the reduction. */
module ChildcarePolicy {
  import opened Fields
  import opened Calendar

  /** Hours of reduction paid at the tier-A rate, the monthly wage caps of the
      two tiers and the monthly floor of the benefit, all in won. */
  datatype Policy = Policy(threshold: real, capA: real, capB: real, floor: real)

  const Since2024July := Date(2024, 7, 1)
  const Since2025 := Date(2025, 1, 1)
  const Since2026 := Date(2026, 1, 1)

  /** The entry whose effective date is the latest one not after `d`. */
  function PolicyOn(d: CalendarDate): (p: Policy)
    ensures !Before(d, Since2026) ==> p == Policy(10.0, 2500000.0, 1600000.0, 500000.0)
    ensures Before(d, Since2026) && !Before(d, Since2025) ==> p == Policy(10.0, 2200000.0, 1500000.0, 500000.0)
    ensures Before(d, Since2025) && !Before(d, Since2024July) ==> p == Policy(10.0, 2000000.0, 1500000.0, 500000.0)
    ensures Before(d, Since2024July) ==> p == Policy(5.0, 2000000.0, 1500000.0, 500000.0)
  {
    if !Before(d, Since2026) then Policy(10.0, 2500000.0, 1600000.0, 500000.0)
    else if !Before(d, Since2025) then Policy(10.0, 2200000.0, 1500000.0, 500000.0)
    else if !Before(d, Since2024July) then Policy(10.0, 2000000.0, 1500000.0, 500000.0)
    else Policy(5.0, 2000000.0, 1500000.0, 500000.0)
  }

  /** `policyByStartDate`: no policy when the start date does not parse. */
  function PolicyByStartDate(start: Option<CalendarDate>): (p: Option<Policy>)
    ensures p.Some? <==> start.Some?
    ensures start.Some? ==> p.value == PolicyOn(start.value)
    ensures p.Some? ==> p.value.floor == 500000.0 && p.value.threshold in {5.0, 10.0}
    ensures p.Some? ==> 2000000.0 <= p.value.capA <= 2500000.0 && 1500000.0 <= p.value.capB <= 1600000.0
  {
    match start
    case None => None
    case Some(d) => Some(PolicyOn(d))
  }

  /** A later start date never lowers the threshold or either cap, and the
      floor never changes. */
  lemma PolicyMonotone(d1: CalendarDate, d2: CalendarDate)
    requires !Before(d2, d1)
    ensures PolicyOn(d1).threshold <= PolicyOn(d2).threshold
    ensures PolicyOn(d1).capA <= PolicyOn(d2).capA
    ensures PolicyOn(d1).capB <= PolicyOn(d2).capB
    ensures PolicyOn(d1).floor == PolicyOn(d2).floor == 500000.0
  {
  }

  /** The table entries on the dates either side of each effective date. */
  lemma PolicyBoundaries()
    ensures PolicyOn(Date(2024, 6, 30)).threshold == 5.0
    ensures PolicyOn(Date(2024, 7, 1)) == Policy(10.0, 2000000.0, 1500000.0, 500000.0)
    ensures PolicyOn(Date(2024, 12, 31)).capA == 2000000.0
    ensures PolicyOn(Date(2025, 6, 1)).capA == 2200000.0
    ensures PolicyOn(Date(2025, 12, 31)).capB == 1500000.0
    ensures PolicyOn(Date(2026, 2, 1)) == Policy(10.0, 2500000.0, 1600000.0, 500000.0)
  {
  }
}

=== FILE: childcare_ratio.dfy ===
/** The childcare calculator's proration ratio: the share of one calendar
    month covered by the reduction period, derived from the start and end
    dates when the user asks for it. */
module ChildcareRatio {
  import opened Fields
  import opened Calendar

  /** What `applyRatioByDates` does with the two date fields: nothing when a
      date is missing, an error when the end precedes the start, a warning
      when the period spans more than one month, else a ratio. */
  datatype RatioOutcome = Skipped | OrderError | MultiMonthWarning | Ratio(r: real)

  function Clamp01(x: real): (c: real)
    ensures 0.0 <= c <= 1.0
    ensures 0.0 <= x <= 1.0 ==> c == x
    ensures x < 0.0 ==> c == 0.0
    ensures x > 1.0 ==> c == 1.0
  {
    if x < 0.0 then 0.0 else if x > 1.0 then 1.0 else x
  }

  /** Number of days from `s` to `e` inclusive, for two dates of one month
      (both dates are midnight UTC, so the millisecond difference divided by
      a day is exact). */
  function InclusiveDays(s: CalendarDate, e: CalendarDate): (n: int)
    requires SameMonth(s, e) && !Before(e, s)
    ensures 1 <= n <= MonthLength(s.year, s.month)
  {
    e.day - s.day + 1
  }

  function RatioByDates(start: Option<CalendarDate>, end: Option<CalendarDate>): (o: RatioOutcome)
    ensures o.Skipped? <==> start.None? || end.None?
    ensures o.OrderError? <==> start.Some? && end.Some? && Before(end.value, start.value)
    ensures o.MultiMonthWarning? <==>
      start.Some? && end.Some? && !Before(end.value, start.value) && !SameMonth(start.value, end.value)
    ensures o.Ratio? ==> 0.0 < o.r <= 1.0
    ensures o.Ratio? ==>
      (o.r == 1.0 <==> InclusiveDays(start.value, end.value) >= DaysInMonth(start.value.year, start.value.month))
    ensures o.Ratio? && (start.value.year != 0 || start.value.month != 2) ==>
      o.r * DaysInMonth(start.value.year, start.value.month) as real == InclusiveDays(start.value, end.value) as real
  {
    if start.None? || end.None? then Skipped
    else
      var s, e := start.value, end.value;
      if Before(e, s) then OrderError
      else if SameMonth(s, e) then
        DaysInMonthIsMonthLength(s.year, s.month);
        var dim := DaysInMonth(s.year, s.month);
        Ratio(Clamp01(InclusiveDays(s, e) as real / dim as real))
      else MultiMonthWarning
  }

  /** Outside February of year 0 the ratio is exactly 1 for the whole month
      and only for it. */
  lemma WholeMonthRatio(s: CalendarDate, e: CalendarDate)
    requires SameMonth(s, e) && !Before(e, s)
    requires s.year != 0 || s.month != 2
    ensures RatioByDates(Some(s), Some(e)) == Ratio(1.0) <==>
      s.day == 1 && e.day == MonthLength(s.year, s.month)
  {
    DaysInMonthIsMonthLength(s.year, s.month);
  }

  /** JavaScript's `Number.prototype.toFixed(4)` read back as a number: the
      nearest multiple of 1/10000, halves rounded away from zero. */
  function Round4(x: real): (y: real)
    ensures -1.0 / 20000.0 <= y - x <= 1.0 / 20000.0
    ensures 0.0 <= x <= 1.0 ==> 0.0 <= y <= 1.0
    ensures x == 1.0 ==> y == 1.0
    ensures x >= 0.0 ==> y * 10000.0 == TenThousandths(x) as real
    ensures x < 0.0 ==> y * 10000.0 == -(TenThousandths(-x) as real)
  {
    if x < 0.0 then -(TenThousandths(-x) as real / 10000.0)
    else TenThousandths(x) as real / 10000.0
  }

  /** The nearest whole number of ten-thousandths to `x`, halves rounded up. */
  function TenThousandths(x: real): (n: int)
    requires x >= 0.0
    ensures x * 10000.0 - 0.5 < n as real <= x * 10000.0 + 0.5
    ensures x <= 1.0 ==> 0 <= n <= 10000
  {
    (x * 10000.0 + 0.5).Floor
  }

  /** The value the ratio field holds after `applyRatioByDates`: the rounded
      ratio when one was derived, the prior value otherwise. */
  function RatioField(prior: real, o: RatioOutcome): (v: real)
    ensures o.Ratio? ==> -1.0 / 20000.0 <= v - o.r <= 1.0 / 20000.0
    ensures o.Ratio? && 0.0 <= o.r <= 1.0 ==> 0.0 <= v <= 1.0
    ensures o.Ratio? && o.r >= 0.0 ==> v * 10000.0 == TenThousandths(o.r) as real
    ensures !o.Ratio? ==> v == prior
  {
    match o
    case Ratio(r) => Round4(r)
    case _ => prior
  }

  /** The worked examples: one day of a 31-day January, the whole of it, and
      a period spanning two months. */
  lemma RatioExamples()
    ensures RatioByDates(Some(Date(2026, 1, 15)), Some(Date(2026, 1, 15))) == Ratio(1.0 / 31.0)
    ensures RatioField(1.0, Ratio(1.0 / 31.0)) == 0.0323
    ensures RatioByDates(Some(Date(2026, 1, 1)), Some(Date(2026, 1, 31))) == Ratio(1.0)
    ensures RatioField(0.5, RatioByDates(Some(Date(2026, 1, 20)), Some(Date(2026, 2, 10)))) == 0.5
    ensures RatioByDates(Some(Date(2026, 1, 20)), Some(Date(2026, 1, 10))) == OrderError
  {
    assert (1.0 / 31.0 * 10000.0 + 0.5).Floor == 323;
  }
}

=== FILE: fields.dfy ===
/** Parsed form fields: a field that may be empty or not a number (JavaScript
    `NaN`), read as an `Option`, and the comparisons the calculators make on
    such fields. `Option` also stands for a result the calculators may not
    produce. */
module Fields {

  datatype Option<+T> = None | Some(value: T) {

    /** The value, or `default` when there is none. */
    function GetOr(default: T): T {
      match this
      case Some(v) => v
      case None => default
    }
  }

  /** The JavaScript test `x > 0` on a parsed field: an empty or non-numeric
      field (`NaN`) fails it, like any value that is not positive. */
  predicate Positive(x: Option<real>) {
    x.Some? && x.value > 0.0
  }

  /** The JavaScript test `a <= b` on two parsed fields; `NaN` on either side
      makes the comparison false. */
  predicate AtMost(a: Option<real>, b: Option<real>) {
    a.Some? && b.Some? && a.value <= b.value
  }
}

=== FILE: housing_subscription.dfy ===
/** The housing subscription score calculator: points for the years
    without a home, the number of dependents and the years the savings
    account has been held, and the dependents counter beside the form. */
module HousingSubscription {

  /** The largest number of dependents the counter holds; six or more
      dependents all score the maximum. */
  const MaxDependents: int := 6

  /** A value offered by the home-period selector: whole years 0 to 15. */
  predicate HomeOption(years: real) {
    0.0 <= years <= 15.0 && years.Floor as real == years
  }

  /** A value offered by the account-period selector: 0 (under six months),
      0.5 (six months to a year), or whole years 1 to 15. */
  predicate AccountOption(years: real) {
    years == 0.0 || years == 0.5 || (1.0 <= years <= 15.0 && years.Floor as real == years)
  }

  /** Points for the years without a home: 2 for under a year, two more per
      year, capped at 32. */
  function HomePeriodScore(years: real): (s: real)
    ensures s <= 32.0
    ensures 0.0 <= years ==> 2.0 <= s
    ensures 0.0 <= years <= 15.0 ==> s == 2.0 + 2.0 * years
    ensures 15.0 <= years ==> s == 32.0
  {
    var score := if years == 0.0 then 2.0 else 2.0 + years * 2.0;
    if score > 32.0 then 32.0 else score
  }

  /** More years without a home never score fewer points. */
  lemma HomePeriodMonotone(y1: real, y2: real)
    requires y1 <= y2
    ensures HomePeriodScore(y1) <= HomePeriodScore(y2)
  {
  }

  /** Points for dependents: 5 for none, five more per dependent, capped
      at 35. */
  function DependentsScore(count: int): (s: int)
    ensures s <= 35
    ensures 0 <= count ==> 5 <= s
    ensures s % 5 == 0
    ensures s == 35 <==> MaxDependents <= count
  {
    var score := 5 + count * 5;
    if score > 35 then 35 else score
  }

  /** Within the counter's range every extra dependent adds points. */
  lemma DependentsStrictlyIncreasing(c1: int, c2: int)
    requires 0 <= c1 < c2 <= MaxDependents
    ensures DependentsScore(c1) < DependentsScore(c2)
  {
  }

  /** Points for the years the account has been held: 1 for under six
      months, 2 for six months to a year, then one more per year from 3,
      capped at 17. */
  function AccountPeriodScore(years: real): (s: real)
    ensures s <= 17.0
    ensures years == 0.0 ==> s == 1.0
    ensures years == 0.5 ==> s == 2.0
    ensures 1.0 <= years <= 15.0 ==> s == years + 2.0
    ensures AccountOption(years) ==> 1.0 <= s
  {
    if years == 0.0 then 1.0
    else if years == 0.5 then 2.0
    else
      var score := years + 2.0;
      if score > 17.0 then 17.0 else score
  }

  /** Over the selector's values, a longer-held account never scores fewer
      points. */
  lemma AccountPeriodMonotone(y1: real, y2: real)
    requires AccountOption(y1) && AccountOption(y2) && y1 <= y2
    ensures AccountPeriodScore(y1) <= AccountPeriodScore(y2)
  {
  }

  /** Between the selector's values the rule is not monotone: a quarter
      year would score more than half a year. */
  lemma AccountPeriodBetweenOptions()
    ensures !AccountOption(0.25)
    ensures AccountPeriodScore(0.5) < AccountPeriodScore(0.25)
  {
  }

  /** The dependents count forced into 0..6. */
  function Clamp(v: int): (c: int)
    ensures 0 <= c <= MaxDependents
    ensures 0 <= v <= MaxDependents ==> c == v
    ensures v < 0 ==> c == 0
    ensures MaxDependents < v ==> c == MaxDependents
  {
    if v < 0 then 0 else if v > MaxDependents then MaxDependents else v
  }

  lemma ClampIdempotent(v: int)
    ensures Clamp(Clamp(v)) == Clamp(v)
  {
  }

  datatype Scores = Scores(home: real, dependentsCount: int, dependents: int, account: real, total: real)

  /** `calculate`: the three scores and their total, with the dependents
      field clamped before it is scored. */
  function Calculate(homeYears: real, dependentsField: int, accountYears: real): (r: Scores)
    ensures r.home == HomePeriodScore(homeYears)
    ensures r.dependentsCount == Clamp(dependentsField)
    ensures r.dependents == DependentsScore(r.dependentsCount)
    ensures r.account == AccountPeriodScore(accountYears)
    ensures r.total == r.home + r.dependents as real + r.account
    ensures 0 <= r.dependentsCount <= MaxDependents
    ensures 5 <= r.dependents <= 35
    ensures r.total <= 84.0
    ensures HomeOption(homeYears) && AccountOption(accountYears) ==> 8.0 <= r.total
  {
    var depCount := Clamp(dependentsField);
    var home := HomePeriodScore(homeYears);
    var dependents := DependentsScore(depCount);
    var account := AccountPeriodScore(accountYears);
    Scores(home, depCount, dependents, account, home + dependents as real + account)
  }

  /** The extremes of the scale: 8 points for the lowest selections, 84 for
      the highest, and any dependents count from six up gives the same
      total. */
  lemma ScoreRange(dependentsField: int)
    ensures Calculate(0.0, 0, 0.0).total == 8.0
    ensures Calculate(15.0, 6, 15.0).total == 84.0
    ensures MaxDependents <= dependentsField ==>
      Calculate(15.0, dependentsField, 15.0) == Calculate(15.0, 6, 15.0)
  {
  }

  /** The dependents field and the count the last calculation displayed. */
  datatype Counter = Counter(field: int, shown: int)

  /** What the user does to the counter: the minus button, the plus button,
      or typing a value and leaving the field. */
  datatype CounterEvent = Minus | Plus | Typed(value: int)

  /** The page runs one calculation when it loads. */
  function Load(field: int): (c: Counter)
    ensures c.field == field
    ensures Consistent(c)
  {
    Counter(field, Clamp(field))
  }

  predicate Consistent(c: Counter) {
    c.shown == Clamp(c.field)
  }

  predicate InRange(c: Counter) {
    0 <= c.field <= MaxDependents
  }

  /** One event: the buttons change the field and recalculate only when the
      result stays within 0..6; a typed value is clamped and always
      recalculated. */
  function Step(c: Counter, e: CounterEvent): (d: Counter)
    ensures Consistent(c) ==> Consistent(d)
    ensures InRange(c) ==> InRange(d)
    ensures e.Typed? ==> InRange(d) && d.field == Clamp(e.value)
    ensures e == Minus ==> (d == c <==> c.field <= 0)
    ensures e == Plus ==> (d == c <==> MaxDependents <= c.field)
    ensures e == Minus && 0 < c.field ==> d.field == c.field - 1
    ensures e == Plus && c.field < MaxDependents ==> d.field == c.field + 1
  {
    match e
    case Minus => if c.field > 0 then Counter(c.field - 1, Clamp(c.field - 1)) else c
    case Plus => if c.field < MaxDependents then Counter(c.field + 1, Clamp(c.field + 1)) else c
    case Typed(v) => Counter(Clamp(v), Clamp(Clamp(v)))
  }

  function RunEvents(c: Counter, events: seq<CounterEvent>): Counter
    decreases |events|
  {
    if |events| == 0 then c else RunEvents(Step(c, events[0]), events[1..])
  }

  predicate AnyTyped(events: seq<CounterEvent>) {
    exists i :: 0 <= i < |events| && events[i].Typed?
  }

  /** After the page loads, the displayed count always matches the field,
      and once any value has been typed, or the field started in range, the
      field stays within 0..6. */
  lemma {:induction false} RunEventsKeepsCounter(c: Counter, events: seq<CounterEvent>)
    requires Consistent(c)
    ensures Consistent(RunEvents(c, events))
    ensures InRange(c) || AnyTyped(events) ==> InRange(RunEvents(c, events))
    decreases |events|
  {
    if |events| > 0 {
      RunEventsKeepsCounter(Step(c, events[0]), events[1..]);
      if !events[0].Typed? && AnyTyped(events) {
        var i :| 0 <= i < |events| && events[i].Typed?;
        assert events[1..][i - 1].Typed?;
      }
    }
  }

  /** Inside the range, plus undoes minus and minus undoes plus. */
  lemma PlusMinusInverse(c: Counter)
    requires Consistent(c) && InRange(c)
    ensures c.field < MaxDependents ==> Step(Step(c, Plus), Minus) == c
    ensures 0 < c.field ==> Step(Step(c, Minus), Plus) == c
  {
  }

  /** Typing the value that is already in the field changes nothing. */
  lemma TypedIdempotent(c: Counter, v: int)
    ensures Step(Step(c, Typed(v)), Typed(Clamp(v))) == Step(c, Typed(v))
  {
  }
}

=== FILE: js_math.dfy ===
/** `Math.min` and `Math.max` on numbers, as the calculators use them. */
module JsMath {

  function Min(a: real, b: real): real {
    if a <= b then a else b
  }

  function Max(a: real, b: real): real {
    if a >= b then a else b
  }
}

=== FILE: unemployment.dfy ===
/** The unemployment benefit estimate: how many days the benefit is paid,
    from the years of insured employment and the claimant's age or
    disability, and the daily amount, 60% of the average daily wage held
    between the statutory lower and upper limits. */
module Unemployment {
  import opened Fields
  import opened JsMath

  /** Days of benefit: one row per band of insured years (under 1, 1 to 3,
      3 to 5, 5 to 10, 10 and more), columns for claimants under 50 and for
      claimants 50 or older or disabled. */
  const DurationTable: seq<seq<int>> := [
    [120, 120],
    [150, 180],
    [180, 210],
    [210, 240],
    [240, 270]
  ]

  /** The years at which a new band starts. */
  const BandStarts: seq<real> := [1.0, 3.0, 5.0, 10.0]

  /** The daily amount limits, in won. */
  const UpperLimit: int := 66000
  const LowerLimit: int := 63104

  /** The table's shape: every row has both columns, the priority column
      never pays fewer days, and more insured years never pay fewer days. */
  lemma DurationTableShape()
    ensures |DurationTable| == |BandStarts| + 1
    ensures forall i :: 0 <= i < |DurationTable| ==>
      |DurationTable[i]| == 2
      && 120 <= DurationTable[i][0] <= DurationTable[i][1] <= 270
    ensures forall i, j, col :: 0 <= i <= j < |DurationTable| && 0 <= col < 2 ==>
      DurationTable[i][col] <= DurationTable[j][col]
  {
  }

  /** `getPeriodIndex`: the band the insured years fall in. */
  function PeriodIndex(years: real): (i: nat)
    ensures i < |DurationTable|
    ensures 0 < i ==> BandStarts[i - 1] <= years
    ensures i < |BandStarts| ==> years < BandStarts[i]
  {
    if years < 1.0 then 0
    else if years < 3.0 then 1
    else if years < 5.0 then 2
    else if years < 10.0 then 3
    else 4
  }

  /** How many of `starts` the years have reached. */
  function StartsReached(years: real, starts: seq<real>): (n: nat)
    ensures n <= |starts|
  {
    if |starts| == 0 then 0
    else (if starts[0] <= years then 1 else 0) + StartsReached(years, starts[1..])
  }

  /** The band index is the number of band starts the years have reached. */
  lemma PeriodIndexCountsStarts(years: real)
    ensures PeriodIndex(years) == StartsReached(years, BandStarts)
  {
    assert [10.0][1..] == [];
    assert [5.0, 10.0][1..] == [10.0];
    assert [3.0, 5.0, 10.0][1..] == [5.0, 10.0];
    assert BandStarts[1..] == [3.0, 5.0, 10.0];
    var r4 := StartsReached(years, [10.0]);
    var r3 := StartsReached(years, [5.0, 10.0]);
    var r2 := StartsReached(years, [3.0, 5.0, 10.0]);
    assert r3 == (if 5.0 <= years then 1 else 0) + r4;
    assert r2 == (if 3.0 <= years then 1 else 0) + r3;
  }

  /** More insured years never fall in a lower band. */
  lemma PeriodIndexMonotone(y1: real, y2: real)
    requires y1 <= y2
    ensures PeriodIndex(y1) <= PeriodIndex(y2)
  {
  }

  /** Claimants aged 50 or more, or disabled, are read from the second
      column. */
  predicate IsPriority(age: int, disabled: bool) {
    age >= 50 || disabled
  }

  /** Insured years from the year and month fields. */
  function MembershipYears(years: int, months: int): (y: real)
    ensures 0 <= years && 0 <= months ==> years as real <= y
    ensures 0 <= months < 12 ==> y.Floor == years
  {
    years as real + months as real / 12.0
  }

  /** Days of benefit for the insured years and the priority column. */
  function Duration(years: real, priority: bool): (d: int)
    ensures 120 <= d <= 270
    ensures years < 1.0 ==> d == 120
    ensures 1.0 <= years < 3.0 ==> d == (if priority then 180 else 150)
    ensures 3.0 <= years < 5.0 ==> d == (if priority then 210 else 180)
    ensures 5.0 <= years < 10.0 ==> d == (if priority then 240 else 210)
    ensures 10.0 <= years ==> d == (if priority then 270 else 240)
  {
    DurationTableShape();
    DurationTable[PeriodIndex(years)][if priority then 1 else 0]
  }

  /** More insured years, or moving into the priority column, never pays
      fewer days. */
  lemma DurationMonotone(y1: real, y2: real, p1: bool, p2: bool)
    requires y1 <= y2
    requires p1 ==> p2
    ensures Duration(y1, p1) <= Duration(y2, p2)
  {
    DurationTableShape();
    PeriodIndexMonotone(y1, y2);
    assert DurationTable[PeriodIndex(y1)][if p1 then 1 else 0] <= DurationTable[PeriodIndex(y1)][if p2 then 1 else 0];
  }

  /** The priority column pays 30 more days, except in the first band. */
  lemma PriorityBonus(years: real)
    ensures Duration(years, true) - Duration(years, false) == (if years < 1.0 then 0 else 30)
  {
  }

  /** Which limit, if any, replaced the computed daily amount. */
  datatype Limit = UpperApplied | LowerApplied | NoLimit

  datatype Daily = Daily(amount: real, limit: Limit)

  /** 60% of the average daily wage, the month taken as 30 days. */
  function BaseDaily(avgMonthlyWage: int): real {
    (avgMonthlyWage as real / 30.0) * 0.6
  }

  /** The daily amount held between the limits, and which limit applied. */
  function ClampDaily(raw: real): (d: Daily)
    ensures LowerLimit as real <= d.amount <= UpperLimit as real
    ensures d.limit == UpperApplied <==> UpperLimit as real < raw
    ensures d.limit == LowerApplied <==> raw < LowerLimit as real
    ensures d.limit == NoLimit ==> d.amount == raw
  {
    if raw > UpperLimit as real then Daily(UpperLimit as real, UpperApplied)
    else if raw < LowerLimit as real then Daily(LowerLimit as real, LowerApplied)
    else Daily(raw, NoLimit)
  }

  /** Clamping is taking the median of the raw amount and the two limits. */
  lemma ClampIsMedian(raw: real)
    ensures ClampDaily(raw).amount == Max(LowerLimit as real, Min(UpperLimit as real, raw))
  {
  }

  /** A larger raw amount never gives a smaller daily amount. */
  lemma ClampMonotone(raw1: real, raw2: real)
    requires raw1 <= raw2
    ensures ClampDaily(raw1).amount <= ClampDaily(raw2).amount
  {
  }

  datatype Estimate = Estimate(duration: int, daily: int, total: int, limit: Limit)

  lemma MulWithin(a: int, b: int, aLo: int, aHi: int, bLo: int, bHi: int)
    requires 0 <= aLo <= a <= aHi && 0 <= bLo <= b <= bHi
    ensures aLo * bLo <= a * b <= aHi * bHi
  {
    assert a * b - aLo * b == (a - aLo) * b;
    assert aLo * b - aLo * bLo == aLo * (b - bLo);
    assert aHi * b - a * b == (aHi - a) * b;
    assert aHi * bHi - aHi * b == aHi * (bHi - b);
  }

  /** The `calculate` handler: nothing without a positive average wage,
      otherwise the days, the daily amount truncated to whole won, and the
      total. */
  function Calculate(age: int, disabled: bool, insuredYears: int, insuredMonths: int, avgMonthlyWage: int)
    : (o: Option<Estimate>)
    ensures o.None? <==> avgMonthlyWage <= 0
    ensures o.Some? ==>
      var e := o.value;
      120 <= e.duration <= 270
      && LowerLimit <= e.daily <= UpperLimit
      && e.total == e.daily * e.duration
      && LowerLimit * 120 <= e.total <= UpperLimit * 270
    ensures o.Some? ==>
      (o.value.limit == UpperApplied <==> 3300000 < avgMonthlyWage)
      && (o.value.limit == LowerApplied <==> avgMonthlyWage < 3155200)
    ensures o.Some? ==>
      (o.value.limit == UpperApplied ==> o.value.daily == UpperLimit)
      && (o.value.limit == LowerApplied ==> o.value.daily == LowerLimit)
      && (o.value.limit == NoLimit ==> o.value.daily == (avgMonthlyWage as real / 50.0).Floor)
    ensures o.Some? ==>
      o.value.duration == Duration(MembershipYears(insuredYears, insuredMonths), IsPriority(age, disabled))
  {
    if avgMonthlyWage <= 0 then None
    else
      var duration := Duration(MembershipYears(insuredYears, insuredMonths), IsPriority(age, disabled));
      var d := ClampDaily(BaseDaily(avgMonthlyWage));
      var daily := d.amount.Floor;
      MulWithin(daily, duration, LowerLimit, UpperLimit, 120, 270);
      Some(Estimate(duration, daily, daily * duration, d.limit))
  }

  /** A higher average wage never gives a smaller daily amount. */
  lemma DailyMonotone(age: int, disabled: bool, insuredYears: int, insuredMonths: int, wage1: int, wage2: int)
    requires 0 < wage1 <= wage2
    ensures Calculate(age, disabled, insuredYears, insuredMonths, wage1).value.daily
         <= Calculate(age, disabled, insuredYears, insuredMonths, wage2).value.daily
  {
    ClampMonotone(BaseDaily(wage1), BaseDaily(wage2));
  }

  /** A 52-year-old with 4 years and 6 months insured and 3,000,000 won a
      month: 60,000 won a day is raised to the lower limit, for 210 days. */
  lemma CalculateExample()
    ensures Calculate(52, false, 4, 6, 3000000) == Some(Estimate(210, 63104, 13251840, LowerApplied))
  {
  }
}

=== FILE: youth_leap.dfy ===
/** The youth savings account ("youth leap") projection: the government
    contribution bracket for an annual income, and the five-year totals of
    principal, contribution and simple interest. */
module YouthLeap {
  import opened Fields
  import opened JsMath

  /** One bracket: incomes up to `limit` (in units of 10,000 won) get
      `ratio` of each monthly payment matched, counting the payment only up
      to `matchLimit` won. */
  datatype Rule = Rule(limit: real, matchLimit: real, ratio: real)

  const ContributionTable: seq<Rule> := [
    Rule(2400.0, 400000.0, 0.06),
    Rule(3600.0, 500000.0, 0.046),
    Rule(4800.0, 600000.0, 0.037),
    Rule(6000.0, 700000.0, 0.03),
    Rule(7500.0, 0.0, 0.0)
  ]

  /** Incomes above this (in units of 10,000 won) are not eligible. */
  const IncomeCap: real := 7500.0

  /** Interest tax rate applied when the account is not tax-free. */
  const TaxRate: real := 0.154

  predicate LimitsIncreasing(rules: seq<Rule>) {
    forall i, j :: 0 <= i < j < |rules| ==> rules[i].limit < rules[j].limit
  }

  predicate RatiosNonincreasing(rules: seq<Rule>) {
    forall i, j :: 0 <= i < j < |rules| ==> rules[j].ratio <= rules[i].ratio
  }

  /** The table's shape: limits strictly increase up to the income cap,
      match ratios never increase, nothing is negative, and the last bracket
      matches nothing. */
  lemma TableShape()
    ensures LimitsIncreasing(ContributionTable)
    ensures RatiosNonincreasing(ContributionTable)
    ensures ContributionTable[|ContributionTable| - 1].limit == IncomeCap
    ensures ContributionTable[|ContributionTable| - 1].ratio == 0.0
    ensures forall i :: 0 <= i < |ContributionTable| ==>
      0.0 <= ContributionTable[i].ratio <= 0.06 && 0.0 <= ContributionTable[i].matchLimit
  {
  }

  /** `Array.prototype.find` with the test `income <= rule.limit`: the index
      of the first rule whose limit is at least `income`, or `|rules|` when
      there is none. */
  function FirstFit(rules: seq<Rule>, income: real): (k: nat)
    ensures k <= |rules|
    ensures forall j :: 0 <= j < k ==> rules[j].limit < income
    ensures k < |rules| ==> income <= rules[k].limit
  {
    if |rules| == 0 then 0
    else if income <= rules[0].limit then 0
    else 1 + FirstFit(rules[1..], income)
  }

  /** With increasing limits the first fit is the bracket the income falls
      in: above the previous limit and at most its own. */
  lemma FirstFitIsBracket(rules: seq<Rule>, income: real, k: nat)
    requires LimitsIncreasing(rules)
    requires k < |rules|
    ensures FirstFit(rules, income) == k <==>
      income <= rules[k].limit && (k == 0 || rules[k - 1].limit < income)
  {
  }

  /** Eligibility, the matching rule and the tax-free status for an income. */
  datatype Contribution = Contribution(eligible: bool, matchLimit: real, ratio: real, taxFree: bool)

  /** `getContributionInfo`. The branch where no bracket fits is kept as
      written; `ContributionBracket` shows it is never taken. */
  function ContributionInfo(income: real): (c: Contribution)
    ensures income > IncomeCap ==> c == Contribution(false, 0.0, 0.0, false)
    ensures income <= IncomeCap ==> c.eligible && c.taxFree
    ensures 0.0 <= c.ratio <= 0.06 && 0.0 <= c.matchLimit
  {
    if income > IncomeCap then Contribution(false, 0.0, 0.0, false)
    else
      var k := FirstFit(ContributionTable, income);
      if k == |ContributionTable| then Contribution(true, 0.0, 0.0, true)
      else Contribution(true, ContributionTable[k].matchLimit, ContributionTable[k].ratio, true)
  }

  /** Every income up to the cap falls in a bracket of the table, and gets
      that bracket's match limit and ratio. */
  lemma ContributionBracket(income: real)
    requires income <= IncomeCap
    ensures FirstFit(ContributionTable, income) < |ContributionTable|
    ensures var k := FirstFit(ContributionTable, income);
      ContributionInfo(income) == Contribution(true, ContributionTable[k].matchLimit, ContributionTable[k].ratio, true)
  {
    assert ContributionTable[|ContributionTable| - 1].limit == IncomeCap;
  }

  /** A higher income never gets a higher match ratio. */
  lemma RatioNonincreasingInIncome(income1: real, income2: real)
    requires income1 <= income2
    ensures ContributionInfo(income2).ratio <= ContributionInfo(income1).ratio
  {
    TableShape();
    if income2 <= IncomeCap {
      ContributionBracket(income1);
      ContributionBracket(income2);
    }
  }

  /** The incomes between 6,000 and 7,500 are eligible and tax-free but get
      no contribution. */
  lemma TopBracketMatchesNothing(income: real)
    requires 6000.0 < income <= IncomeCap
    ensures ContributionInfo(income) == Contribution(true, 0.0, 0.0, true)
  {
    TableShape();
    FirstFitIsBracket(ContributionTable, income, 4);
  }

  lemma MulMonotone(x: real, y: real, r: real)
    requires x <= y && r >= 0.0
    ensures x * r <= y * r
  {
    assert y * r - x * r == (y - x) * r;
  }

  lemma FloorMonotone(x: real, y: real)
    requires x <= y
    ensures x.Floor <= y.Floor
  {
  }

  /** The part of a monthly payment that is matched. */
  function MatchBase(monthlyPay: real, matchLimit: real): (b: real)
    ensures b <= monthlyPay && b <= matchLimit
    ensures b == monthlyPay || b == matchLimit
  {
    Min(monthlyPay, matchLimit)
  }

  /** The contribution for one month: the matched part of the payment
      times the ratio, truncated to whole won. */
  function MonthlyMatch(monthlyPay: real, c: Contribution): (m: int)
    requires c.ratio >= 0.0 && c.matchLimit >= 0.0 && monthlyPay > 0.0
    ensures 0 <= m <= (c.matchLimit * c.ratio).Floor
    ensures c.matchLimit <= monthlyPay ==> m == (c.matchLimit * c.ratio).Floor
    ensures monthlyPay <= c.matchLimit ==> m == (monthlyPay * c.ratio).Floor
  {
    MulMonotone(MatchBase(monthlyPay, c.matchLimit), c.matchLimit, c.ratio);
    MulMonotone(0.0, MatchBase(monthlyPay, c.matchLimit), c.ratio);
    FloorMonotone(MatchBase(monthlyPay, c.matchLimit) * c.ratio, c.matchLimit * c.ratio);
    (MatchBase(monthlyPay, c.matchLimit) * c.ratio).Floor
  }

  /** The government contribution over the five-year term: the monthly
      contribution for each of the 60 months, or nothing when the income gets no match. */
  function GovernmentMatch(monthlyPay: real, c: Contribution): (g: int)
    requires monthlyPay > 0.0
    requires c.ratio >= 0.0 && c.matchLimit >= 0.0
    ensures 0 <= g <= 60 * (c.matchLimit * c.ratio).Floor
    ensures !c.eligible || c.ratio == 0.0 ==> g == 0
    ensures g % 60 == 0
    ensures c.eligible && c.ratio > 0.0 && c.matchLimit <= monthlyPay ==> g == 60 * (c.matchLimit * c.ratio).Floor
    ensures c.eligible && c.ratio > 0.0 && monthlyPay <= c.matchLimit ==> g == 60 * (monthlyPay * c.ratio).Floor
  {
    if c.eligible && c.ratio > 0.0 then
      var m := MonthlyMatch(monthlyPay, c);
      var full, part := (c.matchLimit * c.ratio).Floor, (monthlyPay * c.ratio).Floor;
      assert m <= full;
      assert c.matchLimit <= monthlyPay ==> m == full;
      assert monthlyPay <= c.matchLimit ==> m == part;
      60 * m
    else 0
  }

  /** A larger monthly payment never earns a smaller contribution. */
  lemma GovernmentMatchMonotone(pay1: real, pay2: real, c: Contribution)
    requires 0.0 < pay1 <= pay2
    requires c.ratio >= 0.0 && c.matchLimit >= 0.0
    ensures GovernmentMatch(pay1, c) <= GovernmentMatch(pay2, c)
  {
    if c.eligible && c.ratio > 0.0 {
      var b1, b2 := MatchBase(pay1, c.matchLimit), MatchBase(pay2, c.matchLimit);
      MulMonotone(b1, b2, c.ratio);
      FloorMonotone(b1 * c.ratio, b2 * c.ratio);
      assert MonthlyMatch(pay1, c) <= MonthlyMatch(pay2, c);
    }
  }

  /** Simple interest on 60 monthly payments at `ratePercent` a year: the
      payments earn for 60, 59, ..., 1 months, 1830 payment-months in all. */
  function RawInterest(monthlyPay: real, ratePercent: real): real {
    monthlyPay * (60 * (60 + 1) / 2) as real * (ratePercent / 100.0 / 12.0)
  }

  /** Interest after tax, truncated to whole won; taxed unless the account
      is eligible and tax-free. */
  function Interest(monthlyPay: real, ratePercent: real, c: Contribution): (i: int)
    ensures c.eligible && c.taxFree ==> i == (monthlyPay * ratePercent * 1.525).Floor
    ensures !(c.eligible && c.taxFree) ==> i == (monthlyPay * ratePercent * 1.525 * 0.846).Floor
  {
    var raw := RawInterest(monthlyPay, ratePercent);
    assert (60 * (60 + 1) / 2) as real == 1830.0;
    assert ratePercent / 100.0 / 12.0 == ratePercent / 1200.0;
    assert raw == monthlyPay * (1830.0 * (ratePercent / 1200.0));
    assert 1830.0 * (ratePercent / 1200.0) == ratePercent * 1.525;
    var final := if !c.eligible then raw * (1.0 - TaxRate)
      else if !c.taxFree then raw * (1.0 - TaxRate)
      else raw;
    final.Floor
  }

  /** With a positive payment and a non-negative rate, tax can only lower
      the interest, and the interest is never negative. */
  lemma TaxLowersInterest(monthlyPay: real, ratePercent: real)
    requires monthlyPay > 0.0 && ratePercent >= 0.0
    ensures 0 <= Interest(monthlyPay, ratePercent, Contribution(false, 0.0, 0.0, false))
              <= Interest(monthlyPay, ratePercent, Contribution(true, 0.0, 0.0, true))
  {
    var x := monthlyPay * ratePercent * 1.525;
    MulMonotone(0.0, monthlyPay, ratePercent);
    MulMonotone(0.0, monthlyPay * ratePercent, 1.525);
    MulMonotone(0.0, x, 0.846);
    assert x * 0.846 <= x;
  }

  datatype Projection = Projection(principal: real, government: int, interest: int, grandTotal: real)

  /** The `calculate` handler: nothing when the monthly payment is not
      positive, otherwise the five-year totals. */
  function Project(income: real, monthlyPay: real, ratePercent: real): (p: Option<Projection>)
    ensures p.None? <==> monthlyPay <= 0.0
    ensures p.Some? ==> p.value.principal == 60.0 * monthlyPay
    ensures p.Some? ==>
      p.value.grandTotal == p.value.principal + p.value.government as real + p.value.interest as real
    ensures p.Some? ==>
      var c := ContributionInfo(income);
      0 <= p.value.government <= 60 * (c.matchLimit * c.ratio).Floor
    ensures p.Some? ==> p.value.government == GovernmentMatch(monthlyPay, ContributionInfo(income))
    ensures p.Some? ==> p.value.interest == Interest(monthlyPay, ratePercent, ContributionInfo(income))
    ensures p.Some? && income > IncomeCap ==> p.value.government == 0
    ensures p.Some? && ratePercent >= 0.0 ==> p.value.interest >= 0 && p.value.grandTotal >= p.value.principal
  {
    if monthlyPay <= 0.0 then None
    else
      var c := ContributionInfo(income);
      var principal := monthlyPay * 60.0;
      var government := GovernmentMatch(monthlyPay, c);
      var interest := Interest(monthlyPay, ratePercent, c);
      InterestNonNegative(monthlyPay, ratePercent, c);
      Some(Projection(principal, government, interest, principal + government as real + interest as real))
  }

  lemma InterestNonNegative(monthlyPay: real, ratePercent: real, c: Contribution)
    requires monthlyPay > 0.0
    ensures ratePercent >= 0.0 ==> Interest(monthlyPay, ratePercent, c) >= 0
  {
    if ratePercent >= 0.0 {
      TaxLowersInterest(monthlyPay, ratePercent);
      var x := monthlyPay * ratePercent * 1.525;
      MulMonotone(0.0, monthlyPay, ratePercent);
      MulMonotone(0.0, monthlyPay * ratePercent, 1.525);
      MulMonotone(0.0, x, 0.846);
    }
  }

  /** An income of 3,000 with 500,000 won a month at 4.5%: 4.6% of the whole
      payment is matched, 23,000 won a month. */
  lemma ProjectExample()
    ensures Project(3000.0, 500000.0, 4.5) == Some(Projection(30000000.0, 1380000, 3431250, 34811250.0))
  {
    assert FirstFit(ContributionTable, 3000.0) == 1;
  }
}
